=== FILE: README.md ===
# Chat client core in Dafny

A model of the sequential logic inside a React and Firestore chat client, and proofs about it. It has three parts:

- **Reconnecting socket** (`WebSocketService`). A state record `Conn(socket, connected, attempts)` and one transition function per handler: `connect`, `onopen`, `onmessage`, `onclose`, `onerror`, the reconnect timer, `disconnect` and `send`. The listener registry (`on`, `off`, `emit`) is a map from event values to handler lists. Timers and sockets are not objects here. A transition reports the delay it would schedule, the close code it would pass, whether it builds a new socket, and the events it emits.
- **Message store** (the message half of `FirestoreService`). The collection is a sequence of `Message(id, userId, name, text, timestamp, createdAt)`, with `timestamp` as an `Option`. The Firestore calls are inputs: the fetched collection, or the error they threw. The model covers what the service computes around those calls:
  - the document `sendMessage` writes, and its result object;
  - the `orderBy('timestamp','asc')` + `limit` window;
  - the pending-writes gate of the snapshot listener;
  - id de-duplication and the timestamp fallback;
  - the documents `deleteOldMessages` removes.
- **Chat component** (`Chat`). A state record `{input, sending, pendingMessage, messages, loading}`:
  - `handleSend` and `handleSendWithText`, with the remote outcome as a parameter;
  - the realtime and poll-once loader;
  - the grouping predicates of the message list;
  - name editing, the timestamp-visibility toggle, the avatar colour index and the anonymous-name counter.

Supporting modules:

- `Common`: `Option`, `Result` and sequence helpers.
- `Values`: the JavaScript values the records hold, truthiness and object spread.
- `Text`: JavaScript `trim`, decimal rendering, and UTF-16 code-unit sums.

React state setters are modelled by their effect on the state record. A handler closes over the state of the render it was created in (`view`). Its setters act on the state as it is when they run: the state when the handler is called, and the state when its awaits return, which other handlers may have changed in between (the user typing, the loader replacing the list).

Four behaviours of the code are easy to mistake; the model follows the code:

- `disconnect` does not cancel a pending reconnect timer and does not reset the retry counter.
- `connect` does not guard against an existing socket.
- The client keeps no optimistic message log. Each realtime batch replaces the list wholesale.
- The failure path restores `input` from `pendingMessage` as read in the handler's render. That value is usually null (see Findings).

## Model

| member | source | states |
|---|---|---|
| Socket.On | src/services/websocket.js:133-138 | `on` appends the handler to the end of that event's list and leaves every other event's list unchanged |
| Socket.Off | src/services/websocket.js:140-148 | `off` removes only the first registration of the handler for that event; it is a no-op when the handler is not registered; other events are untouched |
| Socket.OffUndoesOn | src/services/websocket.js:133-148 | registering a handler not yet listed and then removing it restores every event's listener list |
| Socket.Emit | src/services/websocket.js:150-160 | `emit` calls every listener of the event once, in registration order; a handler that throws does not stop the later ones |
| Socket.Connect | src/services/websocket.js:14-18 | `connect` builds a socket, or changes nothing when construction throws; it touches neither `isConnected` nor the retry counter, emits nothing and schedules nothing |
| Socket.OnOpen | src/services/websocket.js:19-24 | after an open the service is connected, the retry counter is 0, and `connected` is emitted once |
| Socket.OnMessage | src/services/websocket.js:26-38 | an unparseable frame emits nothing; a parsed one is emitted as `message` and then, exactly when its `type` is truthy, under that `type` value |
| Socket.OnClose | src/services/websocket.js:40-49 | a close clears `isConnected` and emits `disconnected`; a retry is scheduled iff the close was unclean and fewer than 5 retries were made; the counter is incremented first and the delay is computed from the new value |
| Socket.OnError | src/services/websocket.js:51-54 | an error emits `error` and changes no state |
| Socket.OnTimer | src/services/websocket.js:125-129 | a fired reconnect timer calls `connect` iff the service is not connected; when connected it changes nothing and emits, schedules and closes nothing |
| Socket.Disconnect | src/services/websocket.js:62-68 | with a socket, it closes with code 1000 and clears both socket and `isConnected`; without one it changes nothing; the retry counter is kept either way |
| Socket.Send | src/services/websocket.js:71-84 | `send` returns true and sends the frame iff connected, with a socket, and the send does not throw; otherwise it returns false and sends nothing |
| Socket.ChatMessageFrame | src/services/websocket.js:87-92 | the chat frame carries every property of the message data; its `type` is `chat_message` unless the data supplies its own `type` |
| Socket.TypedSendsShareGuard | src/services/websocket.js:95-116 | the chat-message, typing, join-room and leave-room wrappers all succeed exactly when a plain `send` would, and the typing wrapper sends its frame exactly then |
| Socket.BackoffDoubles | src/services/websocket.js:121 | each retry waits twice as long as the previous one |
| Socket.Apply | src/services/websocket.js:46 | no event takes the retry counter above 5 |
| Socket.BackoffSchedule | src/services/websocket.js:119-121 | with no open in a run, the k-th scheduled retry waits `1000·2^(a+k-1)` ms, where `a` is the starting counter; the number of retries is the number of unclean closes, capped at 5 − `a`, so the counter ends at min(5, `a` + unclean closes) |
| Socket.RetriesBounded | src/services/websocket.js:46 | at most 5 retries are scheduled between two successful opens |
| Socket.NewServiceBackoff | src/services/websocket.js:4-11 | a newly constructed service whose connections keep closing uncleanly retries after exactly 1000, 2000, 4000, 8000 and 16000 ms, and then no more |
| Socket.DefaultBackoffDelays | src/services/websocket.js:8-9 | from a zero counter, five or more unclean closes schedule exactly 1000, 2000, 4000, 8000 and 16000 ms, and nothing more |
| Socket.BackoffDefaults | src/services/websocket.js:120-121 | the first five delays under the default settings are 1000, 2000, 4000, 8000 and 16000 ms |
| Socket.OpenResetsBackoff | src/services/websocket.js:22 | after an open, the next unclean close retries after the base delay |
| Socket.DisconnectDoesNotCancelRetry | src/services/websocket.js:62-68 | a retry timer still pending after `disconnect` fires and builds a new socket |
| Socket.SendFollowsLifecycle | src/services/websocket.js:72 | sending works after an open and fails after any close or `disconnect` |
| Store.NewDocument | src/services/api.js:26-30 | the written document has the message data's properties plus `timestamp` (the server-timestamp sentinel) and `createdAt` (the client clock); those two override same-named data properties |
| Store.SendMessage | src/services/api.js:24-36 | `sendMessage` never throws: a success result carries the new document id, a failure carries the error's message |
| Store.SortAsc | src/services/api.js:42 | the ascending order is a permutation of the collection, sorted by resolved timestamp, with documents whose server timestamp is still pending after all of them in local write order |
| Store.ResolvedBeforePending | src/services/api.js:42 | a document with a resolved timestamp sorts strictly before one whose server timestamp is pending |
| Store.PendingWriteOrder | src/services/api.js:187-199 | with one resolved and one pending document, a window of one holds the resolved one, and pruning to one deletes the resolved one, which is the older |
| Store.Window | src/services/api.js:40-44 | the query window holds `min(limit, count)` documents from the collection, in ascending order, and none of them comes after a document left out |
| Store.GetMessages | src/services/api.js:38-55 | `getMessages` returns the window on success and the error's message on failure |
| Store.KeepFirst | src/services/api.js:73-92 | de-duplication yields pairwise-distinct ids, omits no id, and takes nothing already seen |
| Store.KeepFirstIsSubsequence | src/services/api.js:76-92 | de-duplication keeps the snapshot's order |
| Store.KeepFirstKeepsFirst | src/services/api.js:80-84 | each kept document is the first document of its id in the snapshot |
| Store.KeepFirstInFirstOrder | src/services/api.js:76-86 | the kept documents appear in the order their ids first occur in the snapshot |
| Store.DedupById | src/services/api.js:73-92 | the one-pass loop with a seen-id set computes the de-duplicated list: distinct ids, every id kept, snapshot order, first occurrences |
| Store.WithFallbackTime | src/services/api.js:90 | the delivered timestamp is the server timestamp when present and `createdAt` otherwise; no other field changes |
| Store.FallbackKeepsDisplayTime | src/services/api.js:90 | the fallback does not change the instant the view shows, and applying it twice is applying it once |
| Store.Delivered | src/services/api.js:73-95 | a delivered batch is no longer than the window and has distinct ids covering every id of the window; each message is the first window document with its id, carrying its server timestamp when present and its `createdAt` otherwise; messages come in the order their ids first appear in the window |
| Store.OnSnapshot | src/services/api.js:65-96 | a snapshot reaches the callback iff none was processed yet or it has no pending writes; a dropped one leaves the listener state unchanged; a processed one is recorded and delivers the de-duplicated window |
| Store.SnapshotBatchShape | src/services/api.js:58-95 | a processed batch has at most `limitCount` messages, no repeated id, and a timestamp on every message |
| Store.FirstSnapshotProcessed | src/services/api.js:65-71 | the first snapshot is always processed, whatever its metadata |
| Store.PruneSelection | src/services/api.js:187-199 | nothing is selected when the count is at most `maxMessages`; otherwise exactly count − `maxMessages` documents of the collection are selected, and each comes before every unselected one |
| Store.PruneKeepsNewest | src/services/api.js:193-199 | after pruning, `min(count, maxMessages)` documents survive, all from the collection, none older than a deleted one; within the cap the collection is unchanged |
| Store.PruneIdempotent | src/services/api.js:193-199 | pruning a pruned collection deletes nothing |
| Store.DeleteOldMessages | src/services/api.js:185-206 | a failed query issues no deletion and fails with its message; otherwise it issues exactly the selected deletions: none within the cap and count − `maxMessages` beyond it; beyond the cap it fails with the deletion error iff a deletion fails |
| Chat.HandleSendWithText | src/Chat.jsx:220-269 | returns early iff the text is empty or the render was sending; otherwise `sending` is set on the state at the call and cleared on the state when the awaits return; a prune to 200 is requested iff the send succeeded from a full rendered list; a failure restores the render's non-empty `pendingMessage`, and otherwise the input is whatever it was when the awaits returned |
| Chat.HandleSend | src/Chat.jsx:271-313 | does nothing iff the trimmed input is empty or a send is in progress; otherwise it forwards exactly the trimmed input, parks it in `pendingMessage`, empties the input and sets `sending` while in flight, changing nothing else, and ends with `sending` false, `pendingMessage` null and the list as the loader left it meanwhile |
| Chat.SendIsExclusive | src/Chat.jsx:221-223 | while a send is in flight, a second `handleSend` is refused, before or after other handlers have changed the input or the list |
| Chat.PruneOnlyAfterSuccess | src/Chat.jsx:240-246 | a prune keeping `MAX_MESSAGES` is requested iff a send started, succeeded, and the list held at least `MAX_MESSAGES` |
| Chat.HandleSendInputAfter | src/Chat.jsx:247-265 | after success the input holds what was typed during the send; after an error result or a throw it holds the render's `pendingMessage` when that is a non-empty string, overwriting anything typed, and what was typed otherwise |
| Chat.FailedSendLosesText | src/Chat.jsx:250-255 | from a render with no pending message, a failed send restores nothing: the input holds only what was typed during the send, so it ends empty instead of holding the text |
| Chat.HandleSendRestoring | src/Chat.jsx:247-265 | the corrected pipeline restores exactly the trimmed text on failure, keeps what was typed on success, and ends with the list as the loader left it |
| Chat.RestoringAgreesOnSuccess | src/Chat.jsx:240-246 | the corrected and written pipelines agree on every successful or refused send |
| Chat.ApplyBatch | src/Chat.jsx:113-116 | a realtime batch replaces the list wholesale and ends loading |
| Chat.RealtimeStep | src/Chat.jsx:113-116 | a snapshot the subscription drops changes neither the component nor the subscription; a processed one replaces the list with the de-duplicated window of 200 and ends loading, leaving the input and send flags alone |
| Chat.PollOnce | src/Chat.jsx:119-125 | a successful fetch replaces the list with the window, a failed one keeps it, and loading ends either way |
| Chat.LoaderKeepsCap | src/Chat.jsx:107-130 | neither loader grows the list past `MAX_MESSAGES`; a dropped snapshot changes nothing; a delivered batch has distinct ids |
| Chat.ShowTimestamp | src/Chat.jsx:375-381 | a timestamp shows for the first message, or iff the gap to the previous one exceeds 300000 ms |
| Chat.ShowAvatar | src/Chat.jsx:384-391 | the avatar shows for the last message, on a change of author, or when the next message is more than 120000 ms later |
| Chat.ShowUserName | src/Chat.jsx:394-401 | the name shows for the first message, on a change of author, or when the previous message is more than 120000 ms earlier |
| Chat.AvatarClosesNameGroup | src/Chat.jsx:384-401 | a message shows its avatar exactly when the next one shows its name |
| Chat.TimestampStartsNameGroup | src/Chat.jsx:375-401 | a message showing a timestamp also shows its author's name |
| Chat.GroupsPartitionList | src/Chat.jsx:384-401 | across a list, avatars and names split it into the same groups, and the two ends show theirs |
| Chat.NameEdit | src/Chat.jsx:315-318 | opening the editor copies the name into the draft |
| Chat.NameCancel | src/Chat.jsx:331-334 | cancelling empties the draft and keeps the name |
| Chat.NameSave | src/Chat.jsx:324-329 | saving ends editing; a non-blank draft becomes the name trimmed, and a blank one keeps the old name |
| Chat.NameEditSaveRoundTrip | src/Chat.jsx:315-329 | opening and saving an untouched trimmed name keeps it, and saving twice is saving once |
| Chat.ToggleTimestamp | src/Chat.jsx:404-414 | the toggle flips one id's membership and leaves every other id as it was |
| Chat.ToggleTwiceIsIdentity | src/Chat.jsx:404-414 | toggling the same id twice restores the set |
| Chat.ColorIndex | src/Chat.jsx:29-32 | the colour index is within the 10-entry palette |
| Chat.ColorIgnoresOrder | src/Chat.jsx:30 | ids made of the same characters in any order get the same colour |
| Chat.AnonymousName | src/Chat.jsx:42-46 | the counter grows by exactly one, and the name is `Ẩn danh ` followed by decimal digits whose value is the new counter |
| Chat.AnonymousNamesDistinct | src/Chat.jsx:42-46 | different counter values produce different names |
| Text.Trim | src/Chat.jsx:273-275 | `trim` returns the part of the string between the leading and trailing whitespace; the result is empty iff the string is all whitespace |
| Text.TrimIdempotent | src/Chat.jsx:325-326 | trimming twice is trimming once |
| Text.DecimalRoundTrip | src/Chat.jsx:45 | reading back the decimal text of a counter gives the counter |
| Text.CodeUnitSumPermutation | src/Chat.jsx:30 | the sum of UTF-16 code units depends only on the multiset of characters |
| Values.Spread | src/services/api.js:26-30 | object spread keeps the keys of both sides, and the right side wins on shared keys |
| Common.RemoveFirst | src/services/websocket.js:143-146 | `splice(indexOf(h), 1)` removes exactly one occurrence, the first one, and keeps everything else in order |
| Common.RemoveAllCount | src/services/api.js:195-198 | deleting `k` distinct documents of a collection with unique ids leaves exactly count − `k` |

## Left out

- Rendering is not modelled: JSX, styles, textarea resizing and the direct DOM writes to the input element (`inputRef.current.value = …`). They are presentation only.
- Browser notifications, clipboard, focus and blur are not modelled. They are browser APIs with no effect on the modelled state.
- The simulated online status is not modelled. It is driven by `Math.random`.
- `localStorage` persistence (`loadUser`, `saveUser`, reading and writing the anonymous counter) is not modelled. It is I/O. The counter is a parameter of `Chat.AnonymousName`, and its `parseInt` initialisation (which can yield NaN) is not modelled.
- Chat.AnonymousName: the counter is a `nat` with unbounded `+ 1`. In JavaScript it is a double: from 2^53 on, adding one no longer changes it, so two sessions would get the same name, contrary to `Chat.AnonymousNamesDistinct`; from 10^21 on the template literal prints exponent notation (`1e+21`) instead of decimal digits; and a stored negative value such as `"-3"` makes it negative. The model covers counters from 0 to 2^53 − 2, where the JavaScript arithmetic is exact.
- `Date.now`, `new Date()` and `toLocaleTimeString` are not modelled. Clock values are parameters, and formatted times are presentation.
- The warning at 90% of `MAX_MESSAGES` is not modelled. It is presentation with a float threshold.
- The Firestore calls themselves are not modelled (`addDoc`, `getDocs`, `onSnapshot`, `deleteDoc`, unsubscribing). Their results are inputs. The user and room functions of the service are not part of this model.
- The conversion of a Firestore `Timestamp` to a `Date` is abstracted to integer milliseconds. Invalid dates (NaN) are not modelled.
- `limit(n)` is taken with `n ≥ 0`. Firestore's own validation of the limit is library behaviour.
- Documents with equal timestamps are tie-broken by their position in the collection sequence, standing in for Firestore's document-id order.
- `MAX_MESSAGES` is 200. Its environment override, `MAX_MESSAGE_LENGTH`, `MAX_USERNAME_LENGTH` and the realtime/debug flags are configuration. The realtime flag only selects between `Chat.RealtimeStep` and `Chat.PollOnce`.
- `getStatus` is not modelled. It reads two fields the model exposes directly, plus the browser's `readyState`.
- Real sockets and timers are not modelled. The model keeps one socket flag, so events from a socket that `connect` replaced count as events of the current one. Timer callbacks are ordinary `TimerFired` events.
- A listener that calls `on`, `off` or `connect` while `emit` is running is not modelled. Listener bodies are outside the service.
- Inbound JSON is a flat record. Arrays, nested objects and non-integer numbers as property values are not modelled.
- Chat.HandleSend: state changes while the send is awaited are limited to the input, the message list and the loading flag (`Chat.Meanwhile`), applied at once before the handler resumes. A change that lands between the restore and the `finally` (during the prune's await) is not separated from one that lands before the restore.
- Chat.ColorIndex: `Math.abs` is dropped, because a sum of code units is never negative. The user id is taken as its text, which is what `toString` gives.
- Store.Window: the contract fixes the window up to which documents tied in timestamp at the cut are kept, and their order. The function itself keeps the collection's order for them.
- Store.PruneSelection: likewise, the contract leaves open which documents tied in timestamp at the cut are deleted. The function deletes the tied documents that come last in the descending order, which among ties is the reverse of the collection's order.
- Store.SortAsc: documents whose server timestamp is still pending sort after every resolved one, as Firestore's local view orders them. Among themselves they are ordered by the client clock `createdAt`, standing in for the order of the local writes.
- Store.Delivered: a message's `id` is its document id. In `{id: doc.id, ...doc.data()}` (src/services/api.js:48, 86-88) a stored `id` property would override it. The distinct-id results (`Store.Delivered`, `Store.SnapshotBatchShape`, `Chat.LoaderKeepsCap`) hold for the document ids, which equal the delivered ids only when no stored document carries its own `id` field.
- src/App.jsx (routing) and src/config/api.js (environment URLs) are not part of this model.

## Findings

| source | as written | input that shows it | evidently intended | confidence | as-written member | corrected member |
|---|---|---|---|---|---|---|
| src/Chat.jsx:250-255 | on an error result or a throw, `handleSendWithText` restores `input` from `pendingMessage` as read in the render the handler came from; `handleSend` clears `pendingMessage` after every send, so that render holds null | input `"hi"`, no pending message, nothing typed during the send, `sendMessage` returns `{success:false}` or throws: the input ends `""` and the text is lost | the text parked in `pendingMessage` at src/Chat.jsx:278 is restored, so the input ends `"hi"` | not executed; follows from React closure semantics | Chat.FailedSendLosesText | Chat.HandleSendRestoring |

=== FILE: chat.dfy ===
/** The logic of the `Chat` component (src/Chat.jsx) apart from rendering:
    the send pipeline, the message loader, the grouping rules the message
    list uses, the name editor, the timestamp toggle, the avatar colour and
    the anonymous-name counter.

    React state setters are modelled by their effect on a state record.
    An event handler closes over the state of the render it was created in
    (`view` below); the setters it calls act on the state as it is when they
    run: the state when the handler starts, and the state when its awaits
    return, after other handlers have had their turn (`Meanwhile`). */
module Chat {
  import opened Common
  import opened Text
  import Store

  type Message = Store.Message

  /** `MAX_MESSAGES` when the environment does not override it. */
  const MaxMessages: nat := 200

  // ---------------------------------------------------------------------
  // Send pipeline (handleSend / handleSendWithText)

  datatype ChatState = ChatState(
    input: string,
    sending: bool,
    pendingMessage: Option<string>,
    messages: seq<Message>,
    loading: bool)

  /** How `await firestoreService.sendMessage(...)` settles: with a result
      object, or by throwing. */
  datatype RemoteOutcome = Returned(result: Result<string>) | Threw

  /** `if (pendingMessage)`: a non-empty string. */
  predicate HasPending(p: Option<string>)
  {
    p.Some? && p.value != ""
  }

  /** A run of `handleSendWithText`: the text handed to `sendMessage` (none
      when the handler returned early), the state while the call is in
      flight, the `deleteOldMessages(keep)` request if one is made, and the
      state at the end. */
  datatype SendRun = SendRun(
    forwarded: Option<string>,
    inFlight: ChatState,
    pruneKeep: Option<nat>,
    after: ChatState)

  /** `handleSendWithText(text)` created in render `view`. `start` is the
      state when it is called and `settled` the state when its awaits have
      returned; other handlers may change the state in between. It returns
      at once on empty text or while `view.sending`; otherwise it sets
      `sending` before the await and clears it in the `finally`. After a
      successful send it asks for a prune when the rendered list was
      already at the cap; after a failure (an error result or a throw) it
      restores `input` from `view.pendingMessage`. */
  function HandleSendWithText(view: ChatState, start: ChatState, settled: ChatState, text: string, outcome: RemoteOutcome): (r: SendRun)
    ensures r.forwarded.None? <==> text == "" || view.sending
    ensures r.forwarded.None? ==> r.inFlight == start && r.after == start && r.pruneKeep == None
    ensures r.forwarded.Some? ==> r.forwarded.value == text && r.inFlight == start.(sending := true)
    ensures r.forwarded.Some? ==> !r.after.sending
    ensures r.pruneKeep.Some? <==>
      r.forwarded.Some? && outcome.Returned? && outcome.result.Success? && |view.messages| >= MaxMessages
    ensures r.pruneKeep.Some? ==> r.pruneKeep.value == MaxMessages
    ensures r.forwarded.Some? ==>
      r.after.input == (if !(outcome.Returned? && outcome.result.Success?) && HasPending(view.pendingMessage)
                        then view.pendingMessage.value else settled.input)
    ensures r.forwarded.Some? ==>
      && r.after.pendingMessage == settled.pendingMessage
      && r.after.messages == settled.messages
      && r.after.loading == settled.loading
  {
    if text == "" || view.sending then SendRun(None, start, None, start)
    else
      var ok := outcome.Returned? && outcome.result.Success?;
      var prune := if ok && |view.messages| >= MaxMessages then Some(MaxMessages) else None;
      var restored := if !ok && HasPending(view.pendingMessage) then view.pendingMessage.value else settled.input;
      SendRun(Some(text), start.(sending := true), prune, settled.(input := restored, sending := false))
  }

  /** What other handlers can change while a send is awaited: the user types
      into the emptied box, and the loader replaces the list. They cannot
      touch `sending` or `pendingMessage`: a second send is refused
      (`SendIsExclusive`) and nothing else writes those two. */
  datatype Meanwhile = Meanwhile(input: string, messages: seq<Message>, loading: bool)

  /** The in-flight state once `meanwhile` has happened. */
  function Settle(st: ChatState, meanwhile: Meanwhile): (r: ChatState)
    ensures r.sending == st.sending && r.pendingMessage == st.pendingMessage
    ensures r.input == meanwhile.input && r.messages == meanwhile.messages && r.loading == meanwhile.loading
  {
    st.(input := meanwhile.input, messages := meanwhile.messages, loading := meanwhile.loading)
  }

  /** `handleSend` created in render `view`: with non-blank input and no
      send in progress it parks the trimmed text in `pendingMessage`,
      clears the input, runs `handleSendWithText` (whose closure is the
      same render) and finally clears `pendingMessage`. The send starts and
      ends with the flags bracketed around it; whatever happened meanwhile
      to the input and the list survives. */
  function HandleSend(view: ChatState, meanwhile: Meanwhile, outcome: RemoteOutcome): (r: SendRun)
    ensures r.forwarded.None? <==> Trim(view.input) == [] || view.sending
    ensures r.forwarded.None? ==> r.inFlight == view && r.after == view && r.pruneKeep == None
    ensures r.forwarded.Some? ==> r.forwarded.value == Trim(view.input) && IsTrimmed(r.forwarded.value)
    ensures r.forwarded.Some? ==>
      r.inFlight == view.(input := "", pendingMessage := Some(Trim(view.input)), sending := true)
    ensures r.forwarded.Some? ==>
      && !r.after.sending && r.after.pendingMessage == None
      && r.after.messages == meanwhile.messages && r.after.loading == meanwhile.loading
  {
    var text := Trim(view.input);
    if text == [] || view.sending then SendRun(None, view, None, view)
    else
      TrimIdempotent(view.input);
      var cleared := view.(pendingMessage := Some(text), input := "");
      var run := HandleSendWithText(view, cleared, Settle(cleared.(sending := true), meanwhile), text, outcome);
      run.(after := run.after.(pendingMessage := None))
  }

  /** While a send is in flight, another `handleSend` from the re-rendered
      component is refused, whatever happens meanwhile. */
  lemma SendIsExclusive(view: ChatState, meanwhile: Meanwhile, outcome: RemoteOutcome, later: Meanwhile, second: RemoteOutcome)
    requires HandleSend(view, meanwhile, outcome).forwarded.Some?
    ensures HandleSend(HandleSend(view, meanwhile, outcome).inFlight, later, second).forwarded.None?
    ensures HandleSend(Settle(HandleSend(view, meanwhile, outcome).inFlight, later), later, second).forwarded.None?
  {
  }

  /** A prune of the remote collection down to `MAX_MESSAGES` is requested
      exactly after a successful send from a full list. */
  lemma PruneOnlyAfterSuccess(view: ChatState, meanwhile: Meanwhile, outcome: RemoteOutcome)
    ensures HandleSend(view, meanwhile, outcome).pruneKeep.Some? <==>
      && Trim(view.input) != [] && !view.sending
      && outcome.Returned? && outcome.result.Success?
      && |view.messages| >= MaxMessages
    ensures HandleSend(view, meanwhile, outcome).pruneKeep.Some? ==>
      HandleSend(view, meanwhile, outcome).pruneKeep.value == MaxMessages
  {
  }

  /** After a successful send the input holds whatever was typed meanwhile;
      after a failure it holds the `pendingMessage` of the render the
      handler came from when that was a non-empty string (overwriting
      anything typed meanwhile), and what was typed meanwhile otherwise. */
  lemma HandleSendInputAfter(view: ChatState, meanwhile: Meanwhile, outcome: RemoteOutcome)
    requires HandleSend(view, meanwhile, outcome).forwarded.Some?
    ensures outcome.Returned? && outcome.result.Success? ==>
      HandleSend(view, meanwhile, outcome).after.input == meanwhile.input
    ensures !(outcome.Returned? && outcome.result.Success?) ==>
      HandleSend(view, meanwhile, outcome).after.input ==
        (if HasPending(view.pendingMessage) then view.pendingMessage.value else meanwhile.input)
  {
  }

  /** What the restore does in practice: `pendingMessage` is cleared at the
      end of every send, so the render a new send starts from holds none,
      and a failed send restores nothing: when the user typed nothing
      meanwhile, the input ends empty and the text is lost. */
  lemma FailedSendLosesText(view: ChatState, meanwhile: Meanwhile, outcome: RemoteOutcome)
    requires view.pendingMessage == None && !view.sending && Trim(view.input) != []
    requires !(outcome.Returned? && outcome.result.Success?)
    ensures HandleSend(view, meanwhile, outcome).after.input == meanwhile.input
    ensures meanwhile.input == "" ==> HandleSend(view, meanwhile, outcome).after.input != Trim(view.input)
  {
  }

  /** The send as its comments describe it: the text parked as pending is
      the text restored on failure. */
  function HandleSendRestoring(view: ChatState, meanwhile: Meanwhile, outcome: RemoteOutcome): (r: SendRun)
    ensures r.forwarded.None? <==> Trim(view.input) == [] || view.sending
    ensures r.forwarded.None? ==> r.after == view
    ensures r.forwarded.Some? ==> r.forwarded.value == Trim(view.input) && !r.after.sending && r.after.pendingMessage == None
    ensures r.forwarded.Some? && !(outcome.Returned? && outcome.result.Success?) ==> r.after.input == Trim(view.input)
    ensures r.forwarded.Some? && outcome.Returned? && outcome.result.Success? ==> r.after.input == meanwhile.input
    ensures r.forwarded.Some? ==> r.after.messages == meanwhile.messages
  {
    var text := Trim(view.input);
    if text == [] || view.sending then SendRun(None, view, None, view)
    else
      var cleared := view.(pendingMessage := Some(text), input := "");
      var run := HandleSendWithText(cleared, cleared, Settle(cleared.(sending := true), meanwhile), text, outcome);
      run.(after := run.after.(pendingMessage := None))
  }

  /** The corrected pipeline agrees with the written one on success and on
      every refused send; it differs only in what a failure restores. */
  lemma RestoringAgreesOnSuccess(view: ChatState, meanwhile: Meanwhile, outcome: RemoteOutcome)
    requires (outcome.Returned? && outcome.result.Success?) || Trim(view.input) == [] || view.sending
    ensures HandleSendRestoring(view, meanwhile, outcome) == HandleSend(view, meanwhile, outcome)
  {
  }

  // ---------------------------------------------------------------------
  // Message loader (the effect that runs once on mount)

  /** Realtime mode: each batch the subscription delivers replaces the
      list wholesale and ends loading. */
  function ApplyBatch(st: ChatState, batch: seq<Message>): (r: ChatState)
    ensures r.messages == batch && !r.loading
    ensures r.input == st.input && r.sending == st.sending && r.pendingMessage == st.pendingMessage
  {
    st.(messages := batch, loading := false)
  }

  /** One snapshot reaching the subscription opened with `MAX_MESSAGES`:
      a dropped snapshot changes nothing; a processed one replaces the list
      with its de-duplicated window and ends loading. */
  function RealtimeStep(st: ChatState, sub: Store.Subscription, snap: Store.Snapshot): (r: (ChatState, Store.Subscription))
    ensures sub.processedAny && snap.hasPendingWrites ==> r == (st, sub)
    ensures !(sub.processedAny && snap.hasPendingWrites) ==>
      && r.1.processedAny && !r.0.loading
      && r.0.messages == Store.Delivered(Store.Window(snap.store, MaxMessages))
      && r.0.input == st.input && r.0.sending == st.sending && r.0.pendingMessage == st.pendingMessage
  {
    var (sub', batch) := Store.OnSnapshot(sub, snap, MaxMessages);
    match batch
    case None => (st, sub')
    case Some(b) => (ApplyBatch(st, b), sub')
  }

  /** Poll-once mode: a successful fetch replaces the list, a failed one
      keeps it; loading ends either way. */
  function PollOnce(st: ChatState, fetched: Result<seq<Message>>): (r: ChatState)
    ensures !r.loading
    ensures fetched.Success? ==> r.messages == Store.Window(fetched.data, MaxMessages)
    ensures fetched.Failure? ==> r.messages == st.messages
    ensures r.input == st.input && r.sending == st.sending && r.pendingMessage == st.pendingMessage
  {
    match Store.GetMessages(fetched, MaxMessages)
    case Success(ms) => st.(messages := ms, loading := false)
    case Failure(_) => st.(loading := false)
  }

  /** The list never grows past `MAX_MESSAGES` through either loader, so
      the prune condition `messages.length >= MAX_MESSAGES` holds exactly
      when the list is full; a dropped snapshot changes nothing. */
  lemma LoaderKeepsCap(st: ChatState, sub: Store.Subscription, snap: Store.Snapshot, fetched: Result<seq<Message>>)
    requires |st.messages| <= MaxMessages
    ensures |RealtimeStep(st, sub, snap).0.messages| <= MaxMessages
    ensures |PollOnce(st, fetched).messages| <= MaxMessages
    ensures Store.OnSnapshot(sub, snap, MaxMessages).1.None? ==> RealtimeStep(st, sub, snap).0 == st
    ensures Store.OnSnapshot(sub, snap, MaxMessages).1.Some? ==>
      Store.DistinctIds(RealtimeStep(st, sub, snap).0.messages)
  {
    Store.SnapshotBatchShape(sub, snap, MaxMessages);
  }

  // ---------------------------------------------------------------------
  // Grouping rules of the message list

  const MsPerMinute: int := 1000 * 60

  /** `(later - earlier) / (1000 * 60)` in minutes, as a real number. */
  function GapMinutes(earlier: Message, later: Message): real
  {
    (Store.DisplayTime(later) - Store.DisplayTime(earlier)) as real / MsPerMinute as real
  }

  /** `shouldShowTimestamp`: the first message, or more than five minutes
      after the previous one. */
  function ShowTimestamp(current: Message, previous: Option<Message>): (r: bool)
    ensures r <==> previous.None? || Store.DisplayTime(current) - Store.DisplayTime(previous.value) > 5 * MsPerMinute
  {
    previous.None? || GapMinutes(previous.value, current) > 5.0
  }

  /** `shouldShowAvatar`: the last message, a change of author, or more than
      two minutes before the next one. */
  function ShowAvatar(current: Message, next: Option<Message>): (r: bool)
    ensures r <==> next.None? || current.userId != next.value.userId
                   || Store.DisplayTime(next.value) - Store.DisplayTime(current) > 2 * MsPerMinute
  {
    next.None? || current.userId != next.value.userId || GapMinutes(current, next.value) > 2.0
  }

  /** `shouldShowUserName`: the first message, a change of author, or more
      than two minutes after the previous one. */
  function ShowUserName(current: Message, previous: Option<Message>): (r: bool)
    ensures r <==> previous.None? || current.userId != previous.value.userId
                   || Store.DisplayTime(current) - Store.DisplayTime(previous.value) > 2 * MsPerMinute
  {
    previous.None? || current.userId != previous.value.userId || GapMinutes(previous.value, current) > 2.0
  }

  /** The avatar closes a run of messages exactly where the next message
      opens a new one with its author's name. */
  lemma AvatarClosesNameGroup(a: Message, b: Message)
    ensures ShowAvatar(a, Some(b)) == ShowUserName(b, Some(a))
  {
  }

  /** A timestamp header always starts a new name group. */
  lemma TimestampStartsNameGroup(current: Message, previous: Option<Message>)
    ensures ShowTimestamp(current, previous) ==> ShowUserName(current, previous)
  {
  }

  /** Over a whole list: message i+1 shows its name exactly when message i
      shows its avatar, and both ends of the list show theirs. */
  lemma GroupsPartitionList(ms: seq<Message>)
    requires |ms| > 0
    ensures ShowUserName(ms[0], None) && ShowAvatar(ms[|ms| - 1], None)
    ensures forall i :: 0 <= i < |ms| - 1 ==> (ShowAvatar(ms[i], Some(ms[i + 1])) <==> ShowUserName(ms[i + 1], Some(ms[i])))
  {
    forall i | 0 <= i < |ms| - 1 ensures ShowAvatar(ms[i], Some(ms[i + 1])) <==> ShowUserName(ms[i + 1], Some(ms[i])) {
      AvatarClosesNameGroup(ms[i], ms[i + 1]);
    }
  }

  // ---------------------------------------------------------------------
  // Name editing

  datatype NameState = NameState(name: string, tempName: string, editing: bool)

  /** `handleNameEdit`. */
  function NameEdit(s: NameState): (r: NameState)
    ensures r.editing && r.tempName == s.name && r.name == s.name
  {
    s.(tempName := s.name, editing := true)
  }

  /** `handleNameCancel`. */
  function NameCancel(s: NameState): (r: NameState)
    ensures !r.editing && r.tempName == "" && r.name == s.name
  {
    s.(tempName := "", editing := false)
  }

  /** `handleNameSave`: the trimmed draft becomes the name unless it is
      empty; editing ends either way. */
  function NameSave(s: NameState): (r: NameState)
    ensures !r.editing && r.tempName == s.tempName
    ensures Trim(s.tempName) != [] ==> r.name == Trim(s.tempName)
    ensures Trim(s.tempName) == [] ==> r.name == s.name
    ensures r.name != s.name ==> r.name != [] && IsTrimmed(r.name)
  {
    var t := Trim(s.tempName);
    if t != [] then s.(name := t, editing := false) else s.(editing := false)
  }

  /** Opening the editor and saving untouched keeps a name that has no
      surrounding whitespace, and saving twice is saving once. */
  lemma NameEditSaveRoundTrip(s: NameState)
    ensures s.name != [] && IsTrimmed(s.name) ==> NameSave(NameEdit(s)).name == s.name
    ensures NameSave(NameSave(s)) == NameSave(s)
  {
    if s.name != [] && IsTrimmed(s.name) {
      TrimOfTrimmed(s.name);
    }
  }

  // ---------------------------------------------------------------------
  // Timestamp toggle, avatar colour, anonymous names

  /** `toggleTimestamp(messageId)` on the set of ids whose time is shown. */
  function ToggleTimestamp(visible: set<string>, id: string): (r: set<string>)
    ensures id in r <==> id !in visible
    ensures forall other :: other != id ==> (other in r <==> other in visible)
  {
    if id in visible then visible - {id} else visible + {id}
  }

  lemma ToggleTwiceIsIdentity(visible: set<string>, id: string)
    ensures ToggleTimestamp(ToggleTimestamp(visible, id), id) == visible
  {
  }

  /** Length of `USER_COLORS`. */
  const PaletteSize: nat := 10

  /** `getUserColor`'s index: the sum of the UTF-16 code units of the id's
      text, modulo the palette size. `Math.abs` is left out: the sum is
      never negative. */
  function ColorIndex(userId: string): (k: nat)
    ensures k < PaletteSize
  {
    CodeUnitSum(userId) % PaletteSize
  }

  /** Ids made of the same characters in any order share a colour. */
  lemma ColorIgnoresOrder(a: string, b: string)
    requires multiset(a) == multiset(b)
    ensures ColorIndex(a) == ColorIndex(b)
  {
    CodeUnitSumPermutation(a, b);
  }

  /** "Ẩn danh " (Vietnamese for "anonymous") with its trailing space. */
  const AnonymousPrefix: string := "\U{1EA8}n danh "

  /** `getAnonymousName`: increments the counter and names the user after
      the new value. */
  function AnonymousName(counter: nat): (r: (nat, string))
    ensures r.0 == counter + 1
    ensures |r.1| > |AnonymousPrefix| && r.1[..|AnonymousPrefix|] == AnonymousPrefix
    ensures var digits := r.1[|AnonymousPrefix|..];
      (forall i :: 0 <= i < |digits| ==> IsDigit(digits[i])) && DigitsValue(digits) == r.0
  {
    var n := counter + 1;
    var name := AnonymousPrefix + Decimal(n);
    assert name[|AnonymousPrefix|..] == Decimal(n);
    DecimalRoundTrip(n);
    (n, name)
  }

  /** Successive calls never hand out the same name twice. */
  lemma AnonymousNamesDistinct(c1: nat, c2: nat)
    requires c1 != c2
    ensures AnonymousName(c1).1 != AnonymousName(c2).1
  {
  }
}

=== FILE: common.dfy ===
/** Small shared vocabulary: optional values, results, and the sequence
    operations the chat client performs on arrays (indexOf/splice, filtering). */
module Common {

  /** JavaScript `null`/`undefined` versus a present value. */
  datatype Option<+T> = None | Some(value: T)

  /** A `{success, data}` / `{success: false, error}` result object. */
  datatype Result<+T> = Success(data: T) | Failure(error: string)

  function Min(a: int, b: int): int
  {
    if a <= b then a else b
  }

  /** No element occurs twice. */
  predicate NoDup<T(==)>(s: seq<T>)
  {
    forall i, j :: 0 <= i < j < |s| ==> s[i] != s[j]
  }

  /** `Array.prototype.indexOf`: the first index holding `x`, or -1. */
  function IndexOf<T(==)>(s: seq<T>, x: T): (r: int)
    ensures -1 <= r < |s|
    ensures r == -1 <==> x !in s
    ensures 0 <= r ==> s[r] == x && forall k :: 0 <= k < r ==> s[k] != x
  {
    if |s| == 0 then -1
    else if s[0] == x then 0
    else
      var k := IndexOf(s[1..], x);
      if k == -1 then -1 else k + 1
  }

  /** `indexOf` followed by `splice(index, 1)` when found: drops the first `x`. */
  function RemoveFirst<T(==)>(s: seq<T>, x: T): (r: seq<T>)
    ensures x !in s ==> r == s
    ensures x in s ==> |r| == |s| - 1
    ensures x in s ==> multiset(r) == multiset(s) - multiset{x}
    ensures x in s ==> var k := IndexOf(s, x); r == s[..k] + s[k + 1..]
  {
    var k := IndexOf(s, x);
    if k == -1 then s
    else
      assert s == s[..k] + [s[k]] + s[k + 1..];
      s[..k] + s[k + 1..]
  }

  /** The elements of `s` that do not occur in `gone`, in their original order. */
  function RemoveAll<T(==,!new)>(s: seq<T>, gone: seq<T>): (r: seq<T>)
    ensures |r| <= |s|
    ensures forall x :: x in r <==> x in s && x !in gone
    ensures multiset(r) <= multiset(s)
  {
    if |s| == 0 then []
    else
      var rest := RemoveAll(s[1..], gone);
      assert s == [s[0]] + s[1..];
      if s[0] in gone then rest else [s[0]] + rest
  }

  /** Removing nothing leaves the sequence as it was. */
  lemma {:induction false} RemoveAllNothing<T(!new)>(s: seq<T>)
    ensures RemoveAll(s, []) == s
  {
    if |s| > 0 {
      RemoveAllNothing(s[1..]);
      assert s == [s[0]] + s[1..];
    }
  }

  /** Filtering only looks at membership: two removal lists with the same
      members (as far as `s` can tell) remove the same elements. */
  lemma {:induction false} RemoveAllSameMembers<T(!new)>(s: seq<T>, a: seq<T>, b: seq<T>)
    requires forall x :: x in s ==> (x in a <==> x in b)
    ensures RemoveAll(s, a) == RemoveAll(s, b)
  {
    if |s| > 0 {
      RemoveAllSameMembers(s[1..], a, b);
    }
  }

  /** The tail of a duplicate-free sequence is duplicate-free and does not
      contain the head. */
  lemma NoDupTail<T>(s: seq<T>)
    requires |s| > 0 && NoDup(s)
    ensures NoDup(s[1..]) && s[0] !in s[1..]
  {
    var t := s[1..];
    forall i, j | 0 <= i < j < |t| ensures t[i] != t[j] {
      assert t[i] == s[i + 1] && t[j] == s[j + 1];
    }
    forall k | 0 <= k < |t| ensures t[k] != s[0] {
      assert t[k] == s[k + 1];
    }
  }

  /** Removing the head `a` of `[a] + t` from `gone` leaves a sub-multiset of
      `t` with the same members inside `t`. */
  lemma DropMatchedHead<T>(a: T, t: seq<T>, gone: seq<T>)
    requires a !in t && a in gone
    requires multiset(gone) <= multiset{a} + multiset(t)
    ensures multiset(RemoveFirst(gone, a)) <= multiset(t)
    ensures forall x :: x in t ==> (x in gone <==> x in RemoveFirst(gone, a))
  {
    var g := RemoveFirst(gone, a);
    assert multiset(t)[a] == 0;
    forall x ensures multiset(g)[x] <= multiset(t)[x] {
      if x == a {
        assert multiset(gone)[a] <= 1;
      }
    }
    forall x | x in t ensures x in gone <==> x in g {
      assert multiset(g)[x] == multiset(gone)[x];
    }
  }

  /** When the head `a` is not in `gone`, `gone` is already drawn from `t`. */
  lemma DropUnmatchedHead<T>(a: T, t: seq<T>, gone: seq<T>)
    requires a !in gone
    requires multiset(gone) <= multiset{a} + multiset(t)
    ensures multiset(gone) <= multiset(t)
  {
    forall x ensures multiset(gone)[x] <= multiset(t)[x] {
      if x == a {
        assert multiset(gone)[a] == 0;
      }
    }
  }

  /** When `s` holds distinct elements and every element of `gone` is drawn
      from `s` (as a sub-multiset), removing `gone` shortens `s` by exactly
      `|gone|`. */
  lemma {:induction false} RemoveAllCount<T(!new)>(s: seq<T>, gone: seq<T>)
    requires NoDup(s)
    requires multiset(gone) <= multiset(s)
    ensures |RemoveAll(s, gone)| == |s| - |gone|
  {
    if |s| == 0 {
      assert |multiset(gone)| == 0;
    } else {
      var a, t := s[0], s[1..];
      assert s == [a] + t;
      NoDupTail(s);
      assert multiset(s) == multiset{a} + multiset(t);
      if a in gone {
        var g := RemoveFirst(gone, a);
        DropMatchedHead(a, t, gone);
        RemoveAllSameMembers(t, gone, g);
        RemoveAllCount(t, g);
      } else {
        DropUnmatchedHead(a, t, gone);
        RemoveAllCount(t, gone);
      }
    }
  }
}

=== FILE: socket.dfy ===
/** The reconnecting WebSocket service (`WebSocketService` in
    src/services/websocket.js) as a transition system. The browser socket and
    the timers are not modelled as objects: a transition reports what it
    would hand to them (a close code, a reconnect delay, a frame to send,
    whether a new socket is constructed) and the listener calls it makes. */
module Socket {
  import opened Common
  import opened Values

  const MaxReconnectAttempts: nat := 5
  const ReconnectDelayMs: nat := 1000
  /** The close code `disconnect` passes to `ws.close`. */
  const NormalClosure: nat := 1000

  // ---------------------------------------------------------------------
  // Listener registry (`on`, `off`, `emit`)

  /** A registered callback, by identity: JavaScript compares functions by
      reference, so two registrations of one function share a handler. */
  type Handler = nat

  /** The `listeners` Map. Its keys are values, not just strings: a `type`
      field of 7 and one of "7" name different events. */
  type Registry = map<Value, seq<Handler>>

  const ConnectedEvent: Value := Str("connected")
  const DisconnectedEvent: Value := Str("disconnected")
  const ErrorEvent: Value := Str("error")
  const MessageEvent: Value := Str("message")

  /** The callbacks registered for `ev`, in registration order. */
  function Listeners(reg: Registry, ev: Value): seq<Handler>
  {
    if ev in reg then reg[ev] else []
  }

  /** `on(event, callback)`. */
  function On(reg: Registry, ev: Value, h: Handler): (r: Registry)
    ensures ev in r
    ensures Listeners(r, ev) == Listeners(reg, ev) + [h]
    ensures forall e :: e != ev ==> (e in r <==> e in reg) && Listeners(r, e) == Listeners(reg, e)
  {
    reg[ev := Listeners(reg, ev) + [h]]
  }

  /** `off(event, callback)`: drops the first registration of `h` for `ev`
      and nothing else. */
  function Off(reg: Registry, ev: Value, h: Handler): (r: Registry)
    ensures h !in Listeners(reg, ev) ==> r == reg
    ensures h in Listeners(reg, ev) ==>
      var k := IndexOf(Listeners(reg, ev), h);
      Listeners(r, ev) == Listeners(reg, ev)[..k] + Listeners(reg, ev)[k + 1..]
    ensures forall e :: e != ev ==> Listeners(r, e) == Listeners(reg, e)
  {
    if ev in reg then
      var k := IndexOf(reg[ev], h);
      if k == -1 then reg else reg[ev := RemoveFirst(reg[ev], h)]
    else reg
  }

  /** Registering a fresh callback and then removing it restores every
      event's listener list. */
  lemma OffUndoesOn(reg: Registry, ev: Value, h: Handler)
    requires h !in Listeners(reg, ev)
    ensures forall e :: Listeners(Off(On(reg, ev, h), ev, h), e) == Listeners(reg, e)
  {
    var l := Listeners(reg, ev);
    var added := reg[ev := l + [h]];
    assert On(reg, ev, h) == added;
    RemoveFirstOfAppended(l, h);
    var back := Off(added, ev, h);
    assert back == added[ev := l];
    forall e ensures Listeners(back, e) == Listeners(reg, e) {
      if e != ev {
        assert (e in back <==> e in reg) && (e in back ==> back[e] == reg[e]);
      }
    }
  }

  lemma RemoveFirstOfAppended(l: seq<Handler>, h: Handler)
    requires h !in l
    ensures RemoveFirst(l + [h], h) == l
  {
    assert IndexOf(l + [h], h) == |l|;
    assert (l + [h])[..|l|] == l;
  }

  /** One listener invocation; `threw` records that the callback threw. */
  datatype Call = Call(handler: Handler, threw: bool)

  /** `emit(event, data)`: every listener of `ev` is called in registration
      order; the try/catch around each call means a callback that throws
      (as `throws` decides) does not stop the ones after it. */
  function Emit(reg: Registry, ev: Value, throws: Handler -> bool): (calls: seq<Call>)
    ensures |calls| == |Listeners(reg, ev)|
    ensures forall i :: 0 <= i < |calls| ==>
      calls[i].handler == Listeners(reg, ev)[i] && calls[i].threw == throws(Listeners(reg, ev)[i])
  {
    Invoke(Listeners(reg, ev), throws)
  }

  function Invoke(hs: seq<Handler>, throws: Handler -> bool): (calls: seq<Call>)
    ensures |calls| == |hs|
    ensures forall i :: 0 <= i < |hs| ==> calls[i] == Call(hs[i], throws(hs[i]))
  {
    if hs == [] then [] else [Call(hs[0], throws(hs[0]))] + Invoke(hs[1..], throws)
  }

  // ---------------------------------------------------------------------
  // Connection state and its transitions

  /** What an emitted event carries. */
  datatype Payload = OpenInfo | CloseInfo(wasClean: bool) | ErrorInfo | Data(frame: Record)

  datatype Emission = Emission(event: Value, payload: Payload)

  /** `ws !== null`, `isConnected` and `reconnectAttempts`. */
  datatype Conn = Conn(socket: bool, connected: bool, attempts: nat)

  /** The state the constructor leaves. */
  const Initial: Conn := Conn(false, false, 0)

  /** The result of a transition: the new state, the events emitted in
      order, a reconnect timer scheduled with this delay, the close code
      handed to the socket, and whether a new socket was constructed. */
  datatype Step = Step(
    conn: Conn,
    emitted: seq<Emission>,
    reconnectIn: Option<nat>,
    closeCode: Option<nat>,
    constructs: bool)

  function Pow2(n: nat): (r: nat)
    ensures r >= 1
  {
    if n == 0 then 1 else 2 * Pow2(n - 1)
  }

  /** The delay `scheduleReconnect` computes once the counter reads `attempt`. */
  function Backoff(attempt: nat): nat
    requires attempt >= 1
  {
    ReconnectDelayMs * Pow2(attempt - 1)
  }

  /** Each retry waits twice as long as the one before. */
  lemma BackoffDoubles(attempt: nat)
    requires attempt >= 1
    ensures Backoff(attempt + 1) == 2 * Backoff(attempt)
  {
  }

  /** `connect(userId)`: constructs a new socket, replacing whatever `ws`
      held; if the constructor throws, the catch leaves every field as it
      was. Neither `isConnected` nor the retry counter is touched. */
  function Connect(c: Conn, constructed: bool): (r: Step)
    ensures r.conn.connected == c.connected && r.conn.attempts == c.attempts
    ensures r.conn.socket == (c.socket || constructed)
    ensures r.constructs == constructed
    ensures r.emitted == [] && r.reconnectIn == None && r.closeCode == None
  {
    Step(if constructed then c.(socket := true) else c, [], None, None, constructed)
  }

  /** `onopen`. */
  function OnOpen(c: Conn): (r: Step)
    ensures r.conn.connected && r.conn.attempts == 0 && r.conn.socket == c.socket
    ensures r.emitted == [Emission(ConnectedEvent, OpenInfo)]
    ensures r.reconnectIn == None && r.closeCode == None && !r.constructs
  {
    Step(c.(connected := true, attempts := 0), [Emission(ConnectedEvent, OpenInfo)], None, None, false)
  }

  /** `onmessage`, with `JSON.parse` as an optional result: an unparseable
      frame emits nothing; a parsed one is emitted as `message` and, when
      its `type` property is truthy, once more under that value. */
  function OnMessage(parsed: Option<Record>): (r: seq<Emission>)
    ensures parsed.None? ==> r == []
    ensures parsed.Some? ==> 1 <= |r| <= 2 && r[0] == Emission(MessageEvent, Data(parsed.value))
    ensures parsed.Some? ==>
      (|r| == 2 <==> "type" in parsed.value && Truthy(parsed.value["type"]))
    ensures |r| == 2 ==> r[1] == Emission(parsed.value["type"], Data(parsed.value))
  {
    match parsed
    case None => []
    case Some(d) =>
      [Emission(MessageEvent, Data(d))]
      + (if "type" in d && Truthy(d["type"]) then [Emission(d["type"], Data(d))] else [])
  }

  /** `onclose`: marks the service disconnected, emits `disconnected`, and
      on an unclean close with retries left runs `scheduleReconnect`, which
      first increments the counter and then computes the delay from it. */
  function OnClose(c: Conn, wasClean: bool): (r: Step)
    ensures !r.conn.connected && r.conn.socket == c.socket
    ensures r.emitted == [Emission(DisconnectedEvent, CloseInfo(wasClean))]
    ensures r.reconnectIn.Some? <==> !wasClean && c.attempts < MaxReconnectAttempts
    ensures r.reconnectIn.Some? ==>
      r.conn.attempts == c.attempts + 1 && r.reconnectIn.value == Backoff(r.conn.attempts)
    ensures r.reconnectIn.None? ==> r.conn.attempts == c.attempts
    ensures c.attempts <= MaxReconnectAttempts ==> r.conn.attempts <= MaxReconnectAttempts
    ensures r.closeCode == None && !r.constructs
  {
    var down := c.(connected := false);
    if !wasClean && c.attempts < MaxReconnectAttempts then
      var n := c.attempts + 1;
      Step(down.(attempts := n), [Emission(DisconnectedEvent, CloseInfo(wasClean))], Some(Backoff(n)), None, false)
    else
      Step(down, [Emission(DisconnectedEvent, CloseInfo(wasClean))], None, None, false)
  }

  /** `onerror`: only emits `error`. */
  function OnError(c: Conn): (r: Step)
    ensures r.conn == c && r.emitted == [Emission(ErrorEvent, ErrorInfo)]
    ensures r.reconnectIn == None && r.closeCode == None && !r.constructs
  {
    Step(c, [Emission(ErrorEvent, ErrorInfo)], None, None, false)
  }

  /** The callback of the reconnect timer: `connect` runs only while the
      service is not connected. */
  function OnTimer(c: Conn, constructed: bool): (r: Step)
    ensures r.constructs <==> !c.connected && constructed
    ensures c.connected ==> r.conn == c
    ensures c.connected ==> r.emitted == [] && r.reconnectIn == None && r.closeCode == None
    ensures !c.connected ==> r == Connect(c, constructed)
  {
    if c.connected then Step(c, [], None, None, false) else Connect(c, constructed)
  }

  /** `disconnect()`: with a socket, closes it with code 1000 and clears
      `ws` and `isConnected`; without one it does nothing. It neither
      cancels a pending reconnect timer nor resets the retry counter. */
  function Disconnect(c: Conn): (r: Step)
    ensures c.socket ==> r.conn == Conn(false, false, c.attempts) && r.closeCode == Some(NormalClosure)
    ensures !c.socket ==> r.conn == c && r.closeCode == None
    ensures r.emitted == [] && r.reconnectIn == None && !r.constructs
  {
    if c.socket then Step(Conn(false, false, c.attempts), [], None, Some(NormalClosure), false)
    else Step(c, [], None, None, false)
  }

  /** `send(data)`: the frame goes out only while connected with a socket
      and when serialising and sending do not throw (`throws`); every other
      case returns false instead of throwing. */
  function Send(c: Conn, frame: Record, throws: bool): (r: (bool, Option<Record>))
    ensures r.0 <==> c.connected && c.socket && !throws
    ensures r.1 == (if r.0 then Some(frame) else None)
  {
    if c.connected && c.socket then
      if throws then (false, None) else (true, Some(frame))
    else (false, None)
  }

  /** `sendMessage(messageData)`: `{type: 'chat_message', ...messageData}`,
      so a `type` property of the message data overrides the tag. */
  function ChatMessageFrame(messageData: Record): (r: Record)
    ensures r.Keys == messageData.Keys + {"type"}
    ensures r["type"] == (if "type" in messageData then messageData["type"] else Str("chat_message"))
    ensures forall k :: k in messageData ==> r[k] == messageData[k]
  {
    Spread(map["type" := Str("chat_message")], messageData)
  }

  /** `sendTyping(isTyping)`. */
  function TypingFrame(isTyping: bool): Record
  {
    map["type" := Str("typing"), "isTyping" := Bool(isTyping)]
  }

  /** `joinRoom(roomId)`. */
  function JoinRoomFrame(roomId: Value): Record
  {
    map["type" := Str("join_room"), "roomId" := roomId]
  }

  /** `leaveRoom(roomId)`. */
  function LeaveRoomFrame(roomId: Value): Record
  {
    map["type" := Str("leave_room"), "roomId" := roomId]
  }

  /** The typed wrappers differ only in their frame: each returns what
      `send` returns. */
  lemma TypedSendsShareGuard(c: Conn, data: Record, isTyping: bool, room: Value, throws: bool)
    ensures Send(c, ChatMessageFrame(data), throws).0 == Send(c, TypingFrame(isTyping), throws).0
    ensures Send(c, ChatMessageFrame(data), throws).0 == Send(c, JoinRoomFrame(room), throws).0
    ensures Send(c, JoinRoomFrame(room), throws).0 == Send(c, LeaveRoomFrame(room), throws).0
    ensures Send(c, TypingFrame(isTyping), throws).1 == (if c.connected && c.socket && !throws then Some(TypingFrame(isTyping)) else None)
  {
  }

  // ---------------------------------------------------------------------
  // Runs of events

  /** Everything that can happen to the service, in the order it happens. */
  datatype Event =
    | ConnectCall(constructed: bool)
    | Opened
    | Inbound(parsed: Option<Record>)
    | Closed(wasClean: bool)
    | Errored
    | TimerFired(constructed: bool)
    | DisconnectCall

  function Apply(c: Conn, e: Event): (r: Step)
    ensures c.attempts <= MaxReconnectAttempts ==> r.conn.attempts <= MaxReconnectAttempts
  {
    match e
    case ConnectCall(k) => Connect(c, k)
    case Opened => OnOpen(c)
    case Inbound(p) => Step(c, OnMessage(p), None, None, false)
    case Closed(clean) => OnClose(c, clean)
    case Errored => OnError(c)
    case TimerFired(k) => OnTimer(c, k)
    case DisconnectCall => Disconnect(c)
  }

  /** The state after `es`, and the reconnect delays scheduled on the way. */
  function Run(c: Conn, es: seq<Event>): (r: (Conn, seq<nat>))
    decreases |es|
  {
    if es == [] then (c, [])
    else
      var s := Apply(c, es[0]);
      var rest := Run(s.conn, es[1..]);
      (rest.0, (if s.reconnectIn.Some? then [s.reconnectIn.value] else []) + rest.1)
  }

  /** Number of unclean closes in a run. */
  function UncleanCloses(es: seq<Event>): nat
  {
    if es == [] then 0
    else (if es[0] == Closed(false) then 1 else 0) + UncleanCloses(es[1..])
  }

  /** Between two successful opens, the k-th scheduled retry waits
      `Backoff(a + k)` where `a` is the counter at the start, and the number
      of retries is the number of unclean closes, cut off at the limit. */
  lemma {:induction false} BackoffSchedule(c: Conn, es: seq<Event>)
    requires c.attempts <= MaxReconnectAttempts
    requires forall i :: 0 <= i < |es| ==> es[i] != Opened
    ensures Run(c, es).0.attempts == Min(MaxReconnectAttempts, c.attempts + UncleanCloses(es))
    ensures |Run(c, es).1| == Run(c, es).0.attempts - c.attempts
    ensures forall i :: 0 <= i < |Run(c, es).1| ==> Run(c, es).1[i] == Backoff(c.attempts + i + 1)
    decreases |es|
  {
    if es != [] {
      var s := Apply(c, es[0]);
      ApplyWithoutOpen(c, es[0]);
      BackoffSchedule(s.conn, es[1..]);
      var rest := Run(s.conn, es[1..]);
      assert Run(c, es) == (rest.0, (if s.reconnectIn.Some? then [s.reconnectIn.value] else []) + rest.1);
      assert UncleanCloses(es) == (if es[0] == Closed(false) then 1 else 0) + UncleanCloses(es[1..]);
    }
  }

  /** One event other than an open: only an unclean close with retries
      left moves the counter, by one, and schedules the matching delay. */
  lemma ApplyWithoutOpen(c: Conn, e: Event)
    requires c.attempts <= MaxReconnectAttempts && e != Opened
    ensures Apply(c, e).conn.attempts ==
      (if e == Closed(false) then Min(MaxReconnectAttempts, c.attempts + 1) else c.attempts)
    ensures Apply(c, e).reconnectIn.Some? <==> e == Closed(false) && c.attempts < MaxReconnectAttempts
    ensures Apply(c, e).reconnectIn.Some? ==> Apply(c, e).reconnectIn.value == Backoff(c.attempts + 1)
  {
  }

  /** The run is bounded: at most `MaxReconnectAttempts` retries are
      scheduled between successful opens. */
  lemma RetriesBounded(c: Conn, es: seq<Event>)
    requires c.attempts <= MaxReconnectAttempts
    requires forall i :: 0 <= i < |es| ==> es[i] != Opened
    ensures |Run(c, es).1| <= MaxReconnectAttempts
  {
    BackoffSchedule(c, es);
  }

  /** With the default settings, repeated unclean closures from a fresh or
      freshly opened service wait 1000, 2000, 4000, 8000 and 16000 ms, and then stop. */
  lemma {:induction false} DefaultBackoffDelays(c: Conn, es: seq<Event>)
    requires c.attempts == 0
    requires forall i :: 0 <= i < |es| ==> es[i] != Opened
    requires UncleanCloses(es) >= MaxReconnectAttempts
    ensures Run(c, es).1 == [1000, 2000, 4000, 8000, 16000]
  {
    BackoffSchedule(c, es);
    BackoffDefaults();
    var ds := Run(c, es).1;
    assert |ds| == 5;
    assert ds[0] == Backoff(1) == 1000;
    assert ds[1] == Backoff(2) == 2000;
    assert ds[2] == Backoff(3) == 4000;
    assert ds[3] == Backoff(4) == 8000;
    assert ds[4] == Backoff(5) == 16000;
  }

  /** A newly constructed service retries after 1000, 2000, 4000, 8000
      and 16000 ms when its connections keep closing uncleanly, and then
      gives up until an open. */
  lemma NewServiceBackoff(es: seq<Event>)
    requires forall i :: 0 <= i < |es| ==> es[i] != Opened
    requires UncleanCloses(es) >= MaxReconnectAttempts
    ensures Run(Initial, es).1 == [1000, 2000, 4000, 8000, 16000]
  {
    DefaultBackoffDelays(Initial, es);
  }

  /** The five delays the default settings produce. */
  lemma BackoffDefaults()
    ensures Backoff(1) == 1000 && Backoff(2) == 2000 && Backoff(3) == 4000
    ensures Backoff(4) == 8000 && Backoff(5) == 16000
  {
    assert Pow2(1) == 2;
    assert Pow2(2) == 4;
    assert Pow2(3) == 8;
    assert Pow2(4) == 16;
  }

  /** An open clears the retry budget: the next unclean close schedules a
      retry after the base delay. */
  lemma OpenResetsBackoff(c: Conn)
    ensures OnClose(OnOpen(c).conn, false).reconnectIn == Some(ReconnectDelayMs)
  {
  }

  /** `disconnect` cancels nothing: a reconnect timer still pending from an
      earlier unclean close fires after it and builds a new socket. */
  lemma DisconnectDoesNotCancelRetry(c: Conn)
    requires c.socket
    ensures OnTimer(Disconnect(c).conn, true).constructs
    ensures OnTimer(Disconnect(c).conn, true).conn.socket
  {
  }

  /** Sending works exactly between an open and the next close or
      disconnect. */
  lemma SendFollowsLifecycle(c: Conn, frame: Record)
    ensures c.socket ==> Send(OnOpen(c).conn, frame, false).0
    ensures !Send(OnClose(c, true).conn, frame, false).0
    ensures !Send(OnClose(c, false).conn, frame, false).0
    ensures !Send(Disconnect(c).conn, frame, false).0
  {
  }
}

=== FILE: store.dfy ===
/** The message half of `FirestoreService` (src/services/api.js). The
    Firestore calls themselves are inputs: the collection's contents as a
    sequence of documents, the success or failure of each call. What is
    modelled is everything the service computes around them: the document
    it writes, the result objects it returns, the query window, the
    snapshot gate, id de-duplication with the timestamp fallback, and the
    choice of documents `deleteOldMessages` removes. */
module Store {
  import opened Common
  import opened Values

  /** A message document as the client sees it. `timestamp` is the server
      timestamp in epoch milliseconds, `None` while the store still reports
      it as null (a local write not yet acknowledged); `createdAt` is the
      client clock at send time. The store's order of this sequence stands
      for the document-id order Firestore uses to break timestamp ties. */
  datatype Message = Message(
    id: string,
    userId: string,
    name: string,
    text: string,
    timestamp: Option<int>,
    createdAt: int)

  /** `msg.timestamp || msg.createdAt`, the instant the view works with. */
  function DisplayTime(m: Message): int
  {
    match m.timestamp
    case Some(t) => t
    case None => m.createdAt
  }

  // ---------------------------------------------------------------------
  // sendMessage

  /** The document `sendMessage` hands to `addDoc`: the message data with
      `timestamp` and `createdAt` written last, so they override any
      same-named property of the data. */
  function NewDocument(messageData: Record, nowMs: int): (doc: Record)
    ensures doc.Keys == messageData.Keys + {"timestamp", "createdAt"}
    ensures doc["timestamp"] == ServerTimestamp && doc["createdAt"] == Date(nowMs)
    ensures forall k :: k in messageData && k != "timestamp" && k != "createdAt" ==> doc[k] == messageData[k]
  {
    Spread(messageData, map["timestamp" := ServerTimestamp, "createdAt" := Date(nowMs)])
  }

  /** How the `addDoc` call settles. */
  datatype AddOutcome = Added(docId: string) | AddThrew(message: string)

  /** `sendMessage`: never throws; a failed add becomes a failure result
      carrying the error's message. */
  function SendMessage(outcome: AddOutcome): (r: Result<string>)
    ensures r.Success? <==> outcome.Added?
    ensures r.Success? ==> r.data == outcome.docId
    ensures r.Failure? ==> r.error == outcome.message
  {
    match outcome
    case Added(id) => Success(id)
    case AddThrew(msg) => Failure(msg)
  }

  // ---------------------------------------------------------------------
  // Ordering by timestamp

  /** The ascending order on the timestamp field as the client's query sees
      it: resolved timestamps by value, then the documents whose server
      timestamp is still pending, in the order they were written locally
      (their client clock `createdAt`). */
  predicate Before(x: Message, y: Message)
  {
    match (x.timestamp, y.timestamp)
    case (Some(a), Some(b)) => a <= b
    case (Some(_), None) => true
    case (None, Some(_)) => false
    case (None, None) => x.createdAt <= y.createdAt
  }

  lemma BeforeTotalPreorder(x: Message, y: Message, z: Message)
    ensures Before(x, x)
    ensures Before(x, y) || Before(y, x)
    ensures Before(x, y) && Before(y, z) ==> Before(x, z)
  {
  }

  /** A document with a resolved timestamp sorts strictly before one whose
      server timestamp is still pending. */
  lemma ResolvedBeforePending(x: Message, y: Message)
    requires x.timestamp.Some? && y.timestamp.None?
    ensures Before(x, y) && !Before(y, x)
  {
  }

  predicate SortedAsc(s: seq<Message>)
  {
    forall i, j :: 0 <= i < j < |s| ==> Before(s[i], s[j])
  }

  /** `a` comes no later than any element of `t`. */
  predicate AllAfter(a: Message, t: seq<Message>)
  {
    forall j :: 0 <= j < |t| ==> Before(a, t[j])
  }

  lemma ConsSorted(a: Message, t: seq<Message>)
    requires SortedAsc(t) && AllAfter(a, t)
    ensures SortedAsc([a] + t)
  {
    var r := [a] + t;
    forall i, j | 0 <= i < j < |r| ensures Before(r[i], r[j]) {
      assert r[j] == t[j - 1];
      if i > 0 {
        assert r[i] == t[i - 1];
      }
    }
  }

  /** Being before every element depends only on the multiset of elements. */
  lemma AllAfterMultiset(a: Message, t: seq<Message>, u: seq<Message>)
    requires multiset(t) == multiset(u) && AllAfter(a, u)
    ensures AllAfter(a, t)
  {
    forall j | 0 <= j < |t| ensures Before(a, t[j]) {
      assert t[j] in multiset(u);
    }
  }

  /** An element strictly before the head of a sorted sequence is before all of it. */
  lemma BeforeHead(x: Message, s: seq<Message>)
    requires SortedAsc(s) && |s| > 0 && !Before(s[0], x)
    ensures AllAfter(x, s)
  {
    forall j | 0 <= j < |s| ensures Before(x, s[j]) {
      BeforeTotalPreorder(x, s[0], s[j]);
      BeforeTotalPreorder(s[0], x, s[j]);
    }
  }

  /** The head of a sorted sequence is before all of its tail. */
  lemma SortedTail(s: seq<Message>)
    requires SortedAsc(s) && |s| > 0
    ensures SortedAsc(s[1..]) && AllAfter(s[0], s[1..])
  {
    forall i, j | 0 <= i < j < |s| - 1 ensures Before(s[1..][i], s[1..][j]) {
      assert s[1..][i] == s[i + 1] && s[1..][j] == s[j + 1];
    }
    forall j | 0 <= j < |s| - 1 ensures Before(s[0], s[1..][j]) {
      assert s[1..][j] == s[j + 1];
    }
  }

  /** Places `x` after every element that does not come strictly after it. */
  function Insert(x: Message, s: seq<Message>): (r: seq<Message>)
    requires SortedAsc(s)
    ensures SortedAsc(r)
    ensures multiset(r) == multiset(s) + multiset{x}
    ensures |r| == |s| + 1
  {
    if s == [] then [x]
    else if !Before(s[0], x) then
      BeforeHead(x, s);
      ConsSorted(x, s);
      [x] + s
    else
      SortedTail(s);
      var t := Insert(x, s[1..]);
      var u := s[1..] + [x];
      assert AllAfter(s[0], u) by {
        forall j | 0 <= j < |u| ensures Before(s[0], u[j]) {
          if j < |s| - 1 {
            assert u[j] == s[1..][j];
          }
        }
      }
      AllAfterMultiset(s[0], t, u);
      ConsSorted(s[0], t);
      assert s == [s[0]] + s[1..];
      [s[0]] + t
  }

  /** The collection in ascending timestamp order (a stable insertion sort,
      so equal timestamps keep the store's order). */
  function SortAsc(s: seq<Message>): (r: seq<Message>)
    ensures SortedAsc(r)
    ensures multiset(r) == multiset(s)
    ensures |r| == |s|
  {
    if s == [] then []
    else
      assert s == s[..|s| - 1] + [s[|s| - 1]];
      Insert(s[|s| - 1], SortAsc(s[..|s| - 1]))
  }

  /** Splitting a sorted sequence: everything in the front part comes no
      later than anything in the back part. */
  lemma SortedSplit(s: seq<Message>, k: nat)
    requires SortedAsc(s) && k <= |s|
    ensures multiset(s[..k]) + multiset(s[k..]) == multiset(s)
    ensures forall x, y :: x in multiset(s[..k]) && y in multiset(s[k..]) ==> Before(x, y)
  {
    assert s == s[..k] + s[k..];
    forall x, y | x in multiset(s[..k]) && y in multiset(s[k..]) ensures Before(x, y) {
      var i :| 0 <= i < k && s[..k][i] == x;
      var j :| 0 <= j < |s| - k && s[k..][j] == y;
      assert s[i] == x && s[k + j] == y;
    }
  }

  /** `query(messages, orderBy('timestamp', 'asc'), limit(limitCount))`:
      the `limitCount` oldest documents, oldest first. */
  function Window(store: seq<Message>, limitCount: nat): (w: seq<Message>)
    ensures |w| == Min(limitCount, |store|)
    ensures SortedAsc(w)
    ensures multiset(w) <= multiset(store)
    ensures forall x, y :: x in multiset(w) && y in multiset(store) - multiset(w) ==> Before(x, y)
  {
    var asc := SortAsc(store);
    var k := Min(limitCount, |store|);
    SortedSplit(asc, k);
    assert multiset(store) - multiset(asc[..k]) == multiset(asc[k..]);
    assert SortedAsc(asc[..k]) by {
      forall i, j | 0 <= i < j < k ensures Before(asc[..k][i], asc[..k][j]) {
        assert asc[..k][i] == asc[i] && asc[..k][j] == asc[j];
      }
    }
    asc[..k]
  }

  /** With one resolved and one pending document, a window of one holds
      the resolved document, and pruning down to one deletes it (the
      descending order puts the pending write first). */
  lemma PendingWriteOrder(a: Message, b: Message)
    requires a.timestamp.Some? && b.timestamp.None?
    ensures Window([a, b], 1) == [a]
    ensures PruneSelection([a, b], 1) == [a]
  {
    assert [a, b][..1] == [a];
    assert SortAsc([a]) == [a];
    assert SortAsc([a, b]) == Insert(b, [a]);
    assert Insert(b, [a]) == [a] + Insert(b, []);
  }

  /** `getMessages(limitCount)`: the window on success, the error's message
      when `getDocs` throws. The documents are returned as stored (no
      de-duplication, no timestamp fallback). */
  function GetMessages(fetched: Result<seq<Message>>, limitCount: nat): (r: Result<seq<Message>>)
    ensures r.Success? <==> fetched.Success?
    ensures r.Success? ==> r.data == Window(fetched.data, limitCount)
    ensures r.Failure? ==> r.error == fetched.error
  {
    match fetched
    case Success(store) => Success(Window(store, limitCount))
    case Failure(e) => Failure(e)
  }

  // ---------------------------------------------------------------------
  // De-duplication by id and the timestamp fallback

  function IdsOf(s: seq<Message>): set<string>
  {
    set m | m in s :: m.id
  }

  predicate DistinctIds(s: seq<Message>)
  {
    forall i, j :: 0 <= i < j < |s| ==> s[i].id != s[j].id
  }

  /** `r` is `s` with some elements left out, order kept. */
  predicate IsSubsequence(r: seq<Message>, s: seq<Message>)
    decreases |s|
  {
    if r == [] then true
    else if s == [] then false
    else if r[0] == s[0] then IsSubsequence(r[1..], s[1..])
    else IsSubsequence(r, s[1..])
  }

  /** The position of the first document of `s` carrying `id`. */
  function FirstIndexWithId(s: seq<Message>, id: string): (k: nat)
    requires id in IdsOf(s)
    ensures k < |s| && s[k].id == id
    ensures forall i :: 0 <= i < k ==> s[i].id != id
  {
    if s[0].id == id then 0
    else
      assert id in IdsOf(s[1..]) by {
        var m :| m in s && m.id == id;
        assert m != s[0];
      }
      1 + FirstIndexWithId(s[1..], id)
  }

  /** The first document of `s` carrying `id`. */
  function FirstWithId(s: seq<Message>, id: string): Message
    requires id in IdsOf(s)
  {
    s[FirstIndexWithId(s, id)]
  }

  /** The `forEach` with `seenIds` as a recursive function: documents whose
      id is in `seen` or was met earlier in `s` are skipped. */
  function KeepFirst(s: seq<Message>, seen: set<string>): (r: seq<Message>)
    ensures IdsOf(r) == IdsOf(s) - seen
    ensures DistinctIds(r)
    ensures forall j :: 0 <= j < |r| ==> r[j] in s && r[j].id !in seen
    decreases |s|
  {
    if s == [] then []
    else
      var d := s[0];
      assert s == [d] + s[1..];
      assert IdsOf(s) == {d.id} + IdsOf(s[1..]);
      if d.id in seen then
        KeepFirst(s[1..], seen)
      else
        var t := KeepFirst(s[1..], seen + {d.id});
        var r := [d] + t;
        assert forall j :: 0 <= j < |t| ==> t[j].id != d.id;
        assert IdsOf(r) == {d.id} + IdsOf(t);
        r
  }

  /** De-duplication keeps the order of the snapshot. */
  lemma {:induction false} KeepFirstIsSubsequence(s: seq<Message>, seen: set<string>)
    ensures IsSubsequence(KeepFirst(s, seen), s)
    decreases |s|
  {
    if s != [] {
      var d := s[0];
      KeepFirstIsSubsequence(s[1..], seen + {d.id});
      KeepFirstIsSubsequence(s[1..], seen);
      var r := KeepFirst(s, seen);
      if d.id in seen && r != [] {
        assert r[0] in s[1..] && r[0].id !in seen;
        assert r[0] != d;
      }
      if d.id !in seen {
        assert r[1..] == KeepFirst(s[1..], seen + {d.id});
      }
    }
  }

  /** Each kept document is the first one of its id in the snapshot. */
  lemma {:induction false} KeepFirstKeepsFirst(s: seq<Message>, seen: set<string>)
    ensures forall j :: 0 <= j < |KeepFirst(s, seen)| ==>
      var r := KeepFirst(s, seen);
      r[j].id in IdsOf(s) && r[j] == FirstWithId(s, r[j].id)
    decreases |s|
  {
    if s != [] {
      var d := s[0];
      var r := KeepFirst(s, seen);
      if d.id in seen {
        KeepFirstKeepsFirst(s[1..], seen);
        assert r == KeepFirst(s[1..], seen);
        forall j | 0 <= j < |r| ensures r[j].id in IdsOf(s) && r[j] == FirstWithId(s, r[j].id) {
          assert r[j].id !in seen;
          assert r[j].id in IdsOf(s[1..]) && r[j] == FirstWithId(s[1..], r[j].id);
          FirstWithIdSkip(s, r[j].id);
        }
      } else {
        var t := KeepFirst(s[1..], seen + {d.id});
        KeepFirstKeepsFirst(s[1..], seen + {d.id});
        assert r == [d] + t;
        forall j | 0 <= j < |r| ensures r[j].id in IdsOf(s) && r[j] == FirstWithId(s, r[j].id) {
          if j == 0 {
            assert r[0] == d && d in s;
          } else {
            assert r[j] == t[j - 1];
            assert r[j].id in IdsOf(s[1..]);
            FirstWithIdSkip(s, r[j].id);
          }
        }
      }
    }
  }

  /** The ids of `r` occur in `s`, and their first positions in `s` rise
      along `r`. */
  predicate InFirstOrder(r: seq<Message>, s: seq<Message>)
  {
    (forall i :: 0 <= i < |r| ==> r[i].id in IdsOf(s)) &&
    forall i, j :: 0 <= i < j < |r| ==>
      FirstIndexWithId(s, r[i].id) < FirstIndexWithId(s, r[j].id)
  }

  /** A head whose id `r` does not use leaves the order of `r` as it was. */
  lemma InFirstOrderPastHead(r: seq<Message>, s: seq<Message>)
    requires |s| > 0 && InFirstOrder(r, s[1..])
    requires forall k :: 0 <= k < |r| ==> r[k].id != s[0].id
    ensures InFirstOrder(r, s)
  {
    forall i | 0 <= i < |r| ensures r[i].id in IdsOf(s) {
      FirstIndexSkip(s, r[i].id);
    }
    forall i, j | 0 <= i < j < |r|
      ensures FirstIndexWithId(s, r[i].id) < FirstIndexWithId(s, r[j].id)
    {
      FirstIndexSkip(s, r[i].id);
      FirstIndexSkip(s, r[j].id);
    }
  }

  /** Putting the head in front keeps the order: its id comes first. */
  lemma InFirstOrderWithHead(t: seq<Message>, s: seq<Message>)
    requires |s| > 0 && InFirstOrder(t, s)
    requires forall k :: 0 <= k < |t| ==> t[k].id in IdsOf(s[1..]) && t[k].id != s[0].id
    ensures InFirstOrder([s[0]] + t, s)
  {
    var r := [s[0]] + t;
    assert s[0] in s;
    forall i | 0 <= i < |r| ensures r[i].id in IdsOf(s) {
      if i > 0 {
        assert r[i] == t[i - 1];
      }
    }
    forall i, j | 0 <= i < j < |r|
      ensures FirstIndexWithId(s, r[i].id) < FirstIndexWithId(s, r[j].id)
    {
      assert r[j] == t[j - 1];
      if i == 0 {
        FirstIndexSkip(s, r[j].id);
      } else {
        assert r[i] == t[i - 1];
      }
    }
  }

  /** De-duplication keeps the documents in the order their ids first
      appear in the snapshot. */
  lemma {:induction false} KeepFirstInFirstOrder(s: seq<Message>, seen: set<string>)
    ensures InFirstOrder(KeepFirst(s, seen), s)
    decreases |s|
  {
    if s != [] {
      var d := s[0];
      if d.id in seen {
        var t := KeepFirst(s[1..], seen);
        KeepFirstInFirstOrder(s[1..], seen);
        InFirstOrderPastHead(t, s);
      } else {
        var t := KeepFirst(s[1..], seen + {d.id});
        KeepFirstInFirstOrder(s[1..], seen + {d.id});
        assert forall k :: 0 <= k < |t| ==> t[k].id in IdsOf(s[1..]) by {
          forall k | 0 <= k < |t| ensures t[k].id in IdsOf(s[1..]) {
            assert t[k] in s[1..];
          }
        }
        InFirstOrderPastHead(t, s);
        InFirstOrderWithHead(t, s);
      }
    }
  }

  /** Past a head with another id, the first position of `id` moves by one. */
  lemma FirstIndexSkip(s: seq<Message>, id: string)
    requires |s| > 0 && s[0].id != id && id in IdsOf(s[1..])
    ensures id in IdsOf(s)
    ensures FirstIndexWithId(s, id) == 1 + FirstIndexWithId(s[1..], id)
  {
    assert s == [s[0]] + s[1..];
  }

  lemma FirstWithIdSkip(s: seq<Message>, id: string)
    requires |s| > 0 && s[0].id != id && id in IdsOf(s[1..])
    ensures id in IdsOf(s)
    ensures FirstWithId(s, id) == FirstWithId(s[1..], id)
  {
    assert s == [s[0]] + s[1..];
  }

  /** One step of the scan: the head is kept iff its id is not yet seen. */
  lemma KeepFirstStep(s: seq<Message>, seen: set<string>)
    requires |s| > 0
    ensures s[0].id in seen ==> KeepFirst(s, seen) == KeepFirst(s[1..], seen)
    ensures s[0].id !in seen ==> KeepFirst(s, seen) == [s[0]] + KeepFirst(s[1..], seen + {s[0].id})
  {
  }

  /** One iteration of `DedupById` keeps its invariant. */
  lemma DedupStep(docs: seq<Message>, i: nat, out: seq<Message>, seen: set<string>)
    requires i < |docs| && out + KeepFirst(docs[i..], seen) == KeepFirst(docs, {})
    ensures docs[i].id in seen ==> out + KeepFirst(docs[i + 1..], seen) == KeepFirst(docs, {})
    ensures docs[i].id !in seen ==>
      (out + [docs[i]]) + KeepFirst(docs[i + 1..], seen + {docs[i].id}) == KeepFirst(docs, {})
  {
    KeepFirstStep(docs[i..], seen);
    assert docs[i..][1..] == docs[i + 1..];
  }

  /** The loop of `subscribeToMessages` as written: one pass with a set of
      seen ids, keeping the first document of each id. */
  method DedupById(docs: seq<Message>) returns (out: seq<Message>)
    ensures out == KeepFirst(docs, {})
    ensures DistinctIds(out) && IdsOf(out) == IdsOf(docs) && IsSubsequence(out, docs)
    ensures forall j :: 0 <= j < |out| ==> out[j].id in IdsOf(docs) && out[j] == FirstWithId(docs, out[j].id)
  {
    out := [];
    var seen: set<string> := {};
    for i := 0 to |docs|
      invariant out + KeepFirst(docs[i..], seen) == KeepFirst(docs, {})
    {
      var d := docs[i];
      DedupStep(docs, i, out, seen);
      if d.id !in seen {
        out := out + [d];
        seen := seen + {d.id};
      }
    }
    assert docs[|docs|..] == [];
    KeepFirstIsSubsequence(docs, {});
    KeepFirstKeepsFirst(docs, {});
  }

  /** `timestamp: data.timestamp?.toDate?.() || new Date(data.createdAt)`. */
  function WithFallbackTime(m: Message): (r: Message)
    ensures r.timestamp == Some(DisplayTime(m))
    ensures r.(timestamp := m.timestamp) == m
  {
    m.(timestamp := Some(DisplayTime(m)))
  }

  /** The fallback changes no instant the view shows, and applying it again
      changes nothing. */
  lemma FallbackKeepsDisplayTime(m: Message)
    ensures DisplayTime(WithFallbackTime(m)) == DisplayTime(m)
    ensures WithFallbackTime(WithFallbackTime(m)) == WithFallbackTime(m)
  {
  }

  function MapFallback(s: seq<Message>): (r: seq<Message>)
    ensures |r| == |s|
    ensures forall i :: 0 <= i < |s| ==> r[i] == WithFallbackTime(s[i])
  {
    if s == [] then [] else [WithFallbackTime(s[0])] + MapFallback(s[1..])
  }

  /** Giving the first documents of their ids a display time keeps them the
      first documents of those ids, in the same order. */
  lemma FallbackOfFirsts(kept: seq<Message>, docs: seq<Message>)
    requires InFirstOrder(kept, docs)
    requires forall i :: 0 <= i < |kept| ==>
      kept[i].id in IdsOf(docs) && kept[i] == FirstWithId(docs, kept[i].id)
    ensures var r := MapFallback(kept);
      InFirstOrder(r, docs) &&
      forall i :: 0 <= i < |r| ==> r[i] == WithFallbackTime(FirstWithId(docs, r[i].id))
  {
    var r := MapFallback(kept);
    assert forall i :: 0 <= i < |r| ==> r[i].id == kept[i].id;
  }

  /** The list a processed snapshot hands to the callback. */
  function Delivered(docs: seq<Message>): (r: seq<Message>)
    ensures |r| <= |docs|
    ensures DistinctIds(r) && IdsOf(r) == IdsOf(docs)
    ensures forall i :: 0 <= i < |r| ==> r[i].timestamp.Some?
    ensures forall i :: 0 <= i < |r| ==>
      r[i].id in IdsOf(docs) && r[i] == WithFallbackTime(FirstWithId(docs, r[i].id))
    ensures forall i, j :: 0 <= i < j < |r| ==>
      FirstIndexWithId(docs, r[i].id) < FirstIndexWithId(docs, r[j].id)
  {
    DeliveredShape(docs);
    DeliveredFirsts(docs);
    MapFallback(KeepFirst(docs, {}))
  }

  /** The delivered batch is no longer than the window and carries exactly
      its ids, once each. */
  lemma DeliveredShape(docs: seq<Message>)
    ensures var r := MapFallback(KeepFirst(docs, {}));
      |r| <= |docs| && DistinctIds(r) && IdsOf(r) == IdsOf(docs)
  {
    var kept := KeepFirst(docs, {});
    var r := MapFallback(kept);
    assert forall i :: 0 <= i < |r| ==> r[i].id == kept[i].id;
    assert IdsOf(r) == IdsOf(kept) by {
      forall x | x in IdsOf(kept) ensures x in IdsOf(r) {
        var m :| m in kept && m.id == x;
        var i :| 0 <= i < |kept| && kept[i] == m;
        assert r[i].id == x;
      }
    }
    KeepFirstIsSubsequence(docs, {});
    SubsequenceShorter(kept, docs);
  }

  /** Each delivered message is the first window document of its id with
      its display time, in the order the ids first appear. */
  lemma DeliveredFirsts(docs: seq<Message>)
    ensures var r := MapFallback(KeepFirst(docs, {}));
      InFirstOrder(r, docs) &&
      forall i :: 0 <= i < |r| ==> r[i] == WithFallbackTime(FirstWithId(docs, r[i].id))
  {
    KeepFirstKeepsFirst(docs, {});
    KeepFirstInFirstOrder(docs, {});
    FallbackOfFirsts(KeepFirst(docs, {}), docs);
  }

  lemma {:induction false} SubsequenceShorter(r: seq<Message>, s: seq<Message>)
    requires IsSubsequence(r, s)
    ensures |r| <= |s|
    decreases |s|
  {
    if r != [] {
      if r[0] == s[0] {
        SubsequenceShorter(r[1..], s[1..]);
      } else {
        SubsequenceShorter(r, s[1..]);
      }
    }
  }

  // ---------------------------------------------------------------------
  // subscribeToMessages: the snapshot gate

  /** One `onSnapshot` delivery: the collection as the snapshot sees it and
      its `metadata.hasPendingWrites`. */
  datatype Snapshot = Snapshot(store: seq<Message>, hasPendingWrites: bool)

  /** The listener's closure state: whether `lastProcessedSnapshot` is set. */
  datatype Subscription = Subscription(processedAny: bool)

  const NewSubscription: Subscription := Subscription(false)

  /** The snapshot listener: after the first processed snapshot, one with
      pending writes is dropped without calling back; every other snapshot
      is de-duplicated, given the timestamp fallback, recorded as processed
      and handed to the callback. */
  function OnSnapshot(sub: Subscription, snap: Snapshot, limitCount: nat): (r: (Subscription, Option<seq<Message>>))
    ensures r.1.Some? <==> !sub.processedAny || !snap.hasPendingWrites
    ensures r.1.None? ==> r.0 == sub
    ensures r.1.Some? ==> r.0.processedAny && r.1.value == Delivered(Window(snap.store, limitCount))
  {
    if sub.processedAny && snap.hasPendingWrites then (sub, None)
    else (Subscription(true), Some(Delivered(Window(snap.store, limitCount))))
  }

  /** A processed batch never exceeds the limit, never repeats an id, and
      every message in it has a timestamp. */
  lemma SnapshotBatchShape(sub: Subscription, snap: Snapshot, limitCount: nat)
    ensures var r := OnSnapshot(sub, snap, limitCount);
      r.1.Some? ==>
        && |r.1.value| <= limitCount
        && DistinctIds(r.1.value)
        && (forall i :: 0 <= i < |r.1.value| ==> r.1.value[i].timestamp.Some?)
  {
  }

  /** The first snapshot is always processed, whatever its metadata. */
  lemma FirstSnapshotProcessed(snap: Snapshot, limitCount: nat)
    ensures OnSnapshot(NewSubscription, snap, limitCount).1.Some?
  {
  }

  // ---------------------------------------------------------------------
  // deleteOldMessages

  function Reverse(s: seq<Message>): (r: seq<Message>)
    ensures |r| == |s|
    ensures forall i :: 0 <= i < |s| ==> r[i] == s[|s| - 1 - i]
  {
    if s == [] then [] else Reverse(s[1..]) + [s[0]]
  }

  lemma {:induction false} ReverseMultiset(s: seq<Message>)
    ensures multiset(Reverse(s)) == multiset(s)
  {
    if s != [] {
      ReverseMultiset(s[1..]);
      assert s == [s[0]] + s[1..];
    }
  }

  /** `orderBy('timestamp', 'desc')`: the ascending order reversed (ties
      therefore come out in reverse store order, as Firestore's descending
      id tie-break does). */
  function SortDesc(s: seq<Message>): seq<Message>
  {
    Reverse(SortAsc(s))
  }

  /** The documents `deleteOldMessages(maxMessages)` deletes:
      `docs.slice(maxMessages)` of the descending query, and nothing when
      the collection holds at most `maxMessages`. */
  function PruneSelection(store: seq<Message>, maxMessages: nat): (gone: seq<Message>)
    ensures |store| <= maxMessages ==> gone == []
    ensures |store| > maxMessages ==> |gone| == |store| - maxMessages
    ensures multiset(gone) <= multiset(store)
    ensures forall x, y :: x in multiset(gone) && y in multiset(store) - multiset(gone) ==> Before(x, y)
  {
    if |store| > maxMessages then
      var asc := SortAsc(store);
      var k := |store| - maxMessages;
      var gone := SortDesc(store)[maxMessages..];
      assert gone == Reverse(asc[..k]);
      ReverseMultiset(asc[..k]);
      SortedSplit(asc, k);
      assert multiset(store) - multiset(asc[..k]) == multiset(asc[k..]);
      gone
    else []
  }

  /** The collection once the selected documents are deleted. */
  function ApplyPrune(store: seq<Message>, maxMessages: nat): seq<Message>
  {
    RemoveAll(store, PruneSelection(store, maxMessages))
  }

  /** Documents with distinct ids are distinct documents. */
  lemma DistinctIdsNoDup(store: seq<Message>)
    requires DistinctIds(store)
    ensures NoDup(store)
  {
  }

  /** Pruning keeps exactly `min(count, maxMessages)` documents, all of them
      from the collection, none older than a deleted one; it deletes
      nothing when the collection is within the cap. */
  lemma PruneKeepsNewest(store: seq<Message>, maxMessages: nat)
    requires DistinctIds(store)
    ensures |ApplyPrune(store, maxMessages)| == Min(|store|, maxMessages)
    ensures forall m :: m in ApplyPrune(store, maxMessages) ==> m in store
    ensures forall x, y :: x in PruneSelection(store, maxMessages) && y in ApplyPrune(store, maxMessages) ==> Before(x, y)
    ensures |store| <= maxMessages ==> ApplyPrune(store, maxMessages) == store
  {
    var gone := PruneSelection(store, maxMessages);
    DistinctIdsNoDup(store);
    RemoveAllCount(store, gone);
    if |store| <= maxMessages {
      RemoveAllNothing(store);
    }
    forall x, y | x in gone && y in ApplyPrune(store, maxMessages) ensures Before(x, y) {
      assert x in multiset(gone);
      assert y in store && y !in gone;
      assert y in multiset(store) - multiset(gone);
    }
  }

  /** Pruning twice deletes nothing more than pruning once. */
  lemma PruneIdempotent(store: seq<Message>, maxMessages: nat)
    requires DistinctIds(store)
    ensures ApplyPrune(ApplyPrune(store, maxMessages), maxMessages) == ApplyPrune(store, maxMessages)
  {
    PruneKeepsNewest(store, maxMessages);
    RemoveAllNothing(ApplyPrune(store, maxMessages));
  }

  /** `deleteOldMessages`: the deletions it issues and its result. A failed
      query issues none; when a deletion fails (`deleteError` carries its
      message), every deletion has still been issued and `Promise.all`
      makes the call fail with that message. */
  datatype PruneRun = PruneRun(issued: seq<Message>, result: Result<()>)

  function DeleteOldMessages(fetched: Result<seq<Message>>, maxMessages: nat, deleteError: Option<string>): (r: PruneRun)
    ensures fetched.Failure? ==> r.issued == [] && r.result == Failure(fetched.error)
    ensures fetched.Success? ==> r.issued == PruneSelection(fetched.data, maxMessages)
    ensures fetched.Success? && |fetched.data| <= maxMessages ==> r.issued == [] && r.result.Success?
    ensures fetched.Success? && |fetched.data| > maxMessages ==>
      |r.issued| == |fetched.data| - maxMessages && r.result == (if deleteError.Some? then Failure(deleteError.value) else Success(()))
  {
    match fetched
    case Failure(e) => PruneRun([], Failure(e))
    case Success(store) =>
      var gone := PruneSelection(store, maxMessages);
      if deleteError.Some? && gone != [] then PruneRun(gone, Failure(deleteError.value))
      else PruneRun(gone, Success(()))
  }
}

=== FILE: text.dfy ===
/** The string operations of JavaScript the chat client relies on:
    `String.prototype.trim`, number-to-decimal rendering in template
    literals, and the UTF-16 code units that `split('')`/`charCodeAt` see. */
module Text {

  /** ECMAScript WhiteSpace and LineTerminator code points, which `trim`
      strips from both ends. */
  predicate IsJsSpace(c: char)
  {
    var v := c as int;
    || (0x09 <= v <= 0x0D)               // tab, line feed, vertical tab, form feed, carriage return
    || v == 0x20 || v == 0xA0 || v == 0x1680
    || (0x2000 <= v <= 0x200A)
    || v == 0x2028 || v == 0x2029        // line and paragraph separators
    || v == 0x202F || v == 0x205F || v == 0x3000
    || v == 0xFEFF                       // byte order mark
  }

  /** Number of whitespace characters at the front of `s`. */
  function Lead(s: string): (a: nat)
    ensures a <= |s|
    ensures forall i :: 0 <= i < a ==> IsJsSpace(s[i])
    ensures a < |s| ==> !IsJsSpace(s[a])
  {
    if |s| > 0 && IsJsSpace(s[0]) then 1 + Lead(s[1..]) else 0
  }

  /** Number of whitespace characters at the back of `s`. */
  function Trail(s: string): (b: nat)
    ensures b <= |s|
    ensures forall i :: |s| - b <= i < |s| ==> IsJsSpace(s[i])
    ensures b < |s| ==> !IsJsSpace(s[|s| - 1 - b])
  {
    if |s| > 0 && IsJsSpace(s[|s| - 1]) then 1 + Trail(s[..|s| - 1]) else 0
  }

  /** `s.trim()`. */
  function Trim(s: string): (r: string)
    ensures Lead(s) + |r| <= |s|
    ensures r == s[Lead(s)..Lead(s) + |r|]
    ensures forall i :: Lead(s) + |r| <= i < |s| ==> IsJsSpace(s[i])
    ensures r != [] ==> !IsJsSpace(r[0]) && !IsJsSpace(r[|r| - 1])
    ensures r == [] <==> forall i :: 0 <= i < |s| ==> IsJsSpace(s[i])
  {
    var a := Lead(s);
    var e := if a <= |s| - Trail(s) then |s| - Trail(s) else a;
    s[a..e]
  }

  /** A string that `trim` leaves alone: it is empty or starts and ends with
      a non-whitespace character. */
  predicate IsTrimmed(s: string)
  {
    s == [] || (!IsJsSpace(s[0]) && !IsJsSpace(s[|s| - 1]))
  }

  lemma TrimOfTrimmed(s: string)
    requires IsTrimmed(s)
    ensures Trim(s) == s
  {
    if s != [] {
      assert Lead(s) == 0;
      assert !IsJsSpace(s[|s| - 1]);
    }
  }

  /** Trimming twice is trimming once. */
  lemma TrimIdempotent(s: string)
    ensures Trim(Trim(s)) == Trim(s)
  {
    TrimOfTrimmed(Trim(s));
  }

  // ---------------------------------------------------------------------
  // Decimal rendering of non-negative integers (`${n}` for an integer n)

  predicate IsDigit(c: char)
  {
    '0' <= c <= '9'
  }

  function DigitChar(d: nat): (c: char)
    requires d < 10
    ensures IsDigit(c) && c as int - '0' as int == d
  {
    ('0' as int + d) as char
  }

  /** The decimal text of `n`, most significant digit first, no leading zero. */
  function Decimal(n: nat): (r: string)
    ensures |r| >= 1
    ensures forall i :: 0 <= i < |r| ==> IsDigit(r[i])
    ensures |r| > 1 ==> r[0] != '0'
  {
    if n < 10 then [DigitChar(n)] else Decimal(n / 10) + [DigitChar(n % 10)]
  }

  function DigitValue(c: char): nat
    requires IsDigit(c)
  {
    c as int - '0' as int
  }

  /** The number a digit string denotes (the partner of `Decimal`). */
  function DigitsValue(s: string): nat
    requires forall i :: 0 <= i < |s| ==> IsDigit(s[i])
  {
    if s == [] then 0
    else 10 * DigitsValue(s[..|s| - 1]) + DigitValue(s[|s| - 1])
  }

  /** Reading back the rendered decimal gives the number. */
  lemma {:induction false} DecimalRoundTrip(n: nat)
    ensures DigitsValue(Decimal(n)) == n
  {
    if n >= 10 {
      DecimalRoundTrip(n / 10);
      var r := Decimal(n);
      assert r[..|r| - 1] == Decimal(n / 10);
    }
  }

  // ---------------------------------------------------------------------
  // UTF-16 code units

  /** The UTF-16 code units of one character: itself below U+10000,
      otherwise its surrogate pair. */
  function Utf16Units(c: char): (u: seq<int>)
    ensures 1 <= |u| <= 2
    ensures forall i :: 0 <= i < |u| ==> 0 <= u[i] < 0x10000
    ensures |u| == 2 ==> 0xD800 <= u[0] < 0xDC00 <= u[1] < 0xE000
  {
    var v := c as int;
    if v < 0x10000 then [v]
    else [0xD800 + (v - 0x10000) / 0x400, 0xDC00 + (v - 0x10000) % 0x400]
  }

  function UnitSum(c: char): nat
  {
    var u := Utf16Units(c);
    if |u| == 1 then u[0] else u[0] + u[1]
  }

  /** `s.split('').reduce((a, b) => a + b.charCodeAt(0), 0)`: the sum of all
      UTF-16 code units of `s`. */
  function CodeUnitSum(s: string): nat
  {
    if s == [] then 0 else UnitSum(s[0]) + CodeUnitSum(s[1..])
  }

  lemma {:induction false} CodeUnitSumAppend(a: string, b: string)
    ensures CodeUnitSum(a + b) == CodeUnitSum(a) + CodeUnitSum(b)
  {
    if a == [] {
      assert a + b == b;
    } else {
      assert (a + b)[0] == a[0];
      assert (a + b)[1..] == a[1..] + b;
      CodeUnitSumAppend(a[1..], b);
      assert CodeUnitSum(a + b) == UnitSum(a[0]) + CodeUnitSum(a[1..] + b);
    }
  }

  /** Taking one character out of the middle takes its units out of the sum. */
  lemma {:induction false} CodeUnitSumSplit(b: string, j: nat)
    requires j < |b|
    ensures CodeUnitSum(b) == CodeUnitSum(b[..j] + b[j + 1..]) + UnitSum(b[j])
  {
    var tail := b[j..];
    assert b == b[..j] + tail;
    assert tail[0] == b[j] && tail[1..] == b[j + 1..];
    assert CodeUnitSum(tail) == UnitSum(b[j]) + CodeUnitSum(b[j + 1..]);
    CodeUnitSumAppend(b[..j], tail);
    CodeUnitSumAppend(b[..j], b[j + 1..]);
  }

  /** Taking one position out of a string takes one copy of its character
      out of the multiset. */
  lemma MultisetWithout(b: string, j: nat)
    requires j < |b|
    ensures multiset(b[..j] + b[j + 1..]) == multiset(b) - multiset{b[j]}
  {
    assert b == b[..j] + [b[j]] + b[j + 1..];
    assert multiset(b) == multiset(b[..j]) + multiset{b[j]} + multiset(b[j + 1..]);
  }

  /** A position of `b` holding the first character of `a`, when both hold
      the same characters: removing the two leaves equal multisets. */
  lemma MatchHead(a: string, b: string) returns (j: nat)
    requires a != [] && multiset(a) == multiset(b)
    ensures j < |b| && b[j] == a[0]
    ensures multiset(a[1..]) == multiset(b[..j] + b[j + 1..])
  {
    assert a == [a[0]] + a[1..];
    assert multiset(a[1..]) == multiset(a) - multiset{a[0]};
    assert a[0] in multiset(b);
    j :| 0 <= j < |b| && b[j] == a[0];
    MultisetWithout(b, j);
  }

  /** The sum depends only on which characters occur, not on their order. */
  lemma {:induction false} CodeUnitSumPermutation(a: string, b: string)
    requires multiset(a) == multiset(b)
    ensures CodeUnitSum(a) == CodeUnitSum(b)
    decreases |a|
  {
    if a == [] {
      assert |b| == |multiset(b)| == 0;
    } else {
      var j := MatchHead(a, b);
      CodeUnitSumPermutation(a[1..], b[..j] + b[j + 1..]);
      CodeUnitSumSplit(b, j);
    }
  }
}

=== FILE: values.dfy ===
/** The JavaScript values the chat client moves around: flat message records,
    outbound socket frames and stored documents. Arrays and nested objects
    never occur as field values in these records. */
module Values {

  datatype Value =
    | Null
    | Bool(b: bool)
    | Num(n: int)
    | Str(s: string)
    | Date(ms: int)          // a `Date` object, by its epoch milliseconds
    | ServerTimestamp        // the `serverTimestamp()` sentinel the store resolves

  /** A flat object literal: property name to value. */
  type Record = map<string, Value>

  /** JavaScript truthiness: `null`, `false`, `0` and `""` are falsy; every
      other value, including every object, is truthy. */
  predicate Truthy(v: Value)
  {
    match v
    case Null => false
    case Bool(b) => b
    case Num(n) => n != 0
    case Str(s) => s != ""
    case Date(_) => true
    case ServerTimestamp => true
  }

  /** The object literal `{...base, ...over}`: every property of `over`
      replaces the property of the same name in `base`. */
  function Spread(base: Record, over: Record): (r: Record)
    ensures r.Keys == base.Keys + over.Keys
    ensures forall k :: k in over ==> r[k] == over[k]
    ensures forall k :: k in base && k !in over ==> r[k] == base[k]
  {
    base + over
  }
}
